=== FILE: README.md ===
# Portfolio OS in Dafny

A model of the interactive core of Portfolio OS. This is a portfolio website
that imitates an operating system: a power button, a BIOS memory count and a
bootloader menu, then a desktop with windows, a command palette, two shells, a
file explorer, a sliding puzzle, a projects list, and an achievement store
that the desktop feeds.

Every piece of state is an immutable datatype. Every event is a pure function
from state to state. The browser's inputs are parameters:

- the clock, as `now`;
- the hour of the day;
- key presses;
- timer callbacks, as events.

## Modules

| file | module | what it models |
|---|---|---|
| wrappers.dfy | Wrappers | `Option`, for `null`/`undefined` results |
| seqs.dfy | Seqs | filters, `indexOf`, subsequences, duplicate-free lists |
| text.dfy | Text | `toLowerCase` (ASCII letters only), `includes`, `trim`, `split(' ')`, `join` |
| stablesort.dfy | StableSort | the stable `Array.prototype.sort` with a numeric key |
| jsnum.dfy | JsNum | JavaScript's truncating `%` |
| filesystem.dfy | FileSystem | the virtual file tree and `getPathContent` |
| explorer.dfy | Explorer | the file explorer's navigation and its back button |
| terminal.dfy | Terminal | the 2D shell's Enter handler |
| puzzle.dfy | Puzzle | the 4x4 sliding puzzle's `handleMove` |
| desktop.dfy | Desktop | the window manager: launch, close, maximise, minimise, Alt+Tab, focus, taskbar |
| settings.dfy | Settings | the persisted store: notifications, achievements, progress trackers, palette history, skip-boot flag |
| palette.dfy | Palette | the command palette: fuzzy match, filter and ranking, keyboard selection |
| holoterminal.dfy | HoloTerminal | the 3D "holo" shell's `handleCmd` |
| projects.dfy | Projects | the projects window's search and technology filter |
| grub.dfy | Grub | the bootloader menu's keys and clicks |
| stage.dfy | Stage | the top-level screens: off, BIOS, bootloader, desktop, 3D world, resume |
| session.dfy | Session | the desktop, the store and the two overlays together |

### Behaviour of the code that the model keeps

**Closing does not repair focus.** Closing a window leaves `activeId` pointing
at the closed window. A second Escape then calls `close` on an id that has no
window, and nothing changes.

**`trackAppOpen` writes from a stale snapshot.** Both of its writes spread the
progress record read on entry. So when a section app (`about`, `projects`,
`contact`) is opened for the first time, the second write restores the old
opened-apps list.

**The BIOS-to-bootloader timer is never cancelled.** The 500 ms timer that the
last BIOS tick schedules fires whatever the screen is by then. A Skip inside
that half second lands on the desktop and is then replaced by the bootloader
menu (`Stage.SkipRacesGrubTimer`). So a stored skip-boot setting does not
stop the menu from replacing the desktop once that timer is pending.

## Model

| member | source | states |
|---|---|---|
| Text.Lower | src/components/CommandPalette.jsx:27-28 | `toLowerCase` keeps the length, moves each of A..Z up by 32 to its lower-case letter, keeps every other character, and leaves no upper-case letter |
| Text.LowerIdempotent | src/components/CommandPalette.jsx:27-28 | lower-casing twice is lower-casing once |
| Text.Contains | src/components/CommandPalette.jsx:30 | `includes` holds exactly when the query occurs at some position of the text |
| Text.TrimStart | src/App.jsx:429 | the result is a suffix of the input; the cut prefix is all whitespace; the result does not start with whitespace |
| Text.TrimEnd | src/App.jsx:429 | the result is a prefix of the input; the cut suffix is all whitespace; the result does not end with whitespace |
| Text.TrimIsTrimmedSlice | src/App.jsx:429 | `trim` yields the slice of the input whose outside is blank and whose two ends are not whitespace |
| Text.TrimEmptyIffBlank | src/components/CommandPalette.jsx:50 | `trim` is empty exactly when the input is all whitespace (the palette's blank-search test) |
| Text.Split | src/App.jsx:430 | `split(' ')` yields at least one piece and no piece contains a space |
| Text.SplitJoin | src/App.jsx:430 | joining the pieces of `split(' ')` with single spaces gives back the input |
| Text.SplitNoSpace | src/App.jsx:430 | a string without spaces splits into itself alone |
| Text.LoneCd | src/App.jsx:429-430 | the line `cd`, alone after trimming, parses to the single command word `cd` |
| JsNum.JsRem | src/App.jsx:136-137 | `%` truncates toward zero: Euclidean remainder for non-negative dividends, a value in (-b, 0] for negative ones, and in both cases the dividend minus the result is a multiple of the divisor, which fixes `-1 % 4 == -1` |
| JsNum.QuotRem | src/App.jsx:136-137 | with the quotient truncated toward zero, quotient times divisor plus remainder gives back the dividend, and a negative dividend that is not a multiple gets the Euclidean remainder minus the divisor |
| Seqs.IndexOf | src/App.jsx:135 | `indexOf` is -1 exactly when the value is absent, else the first position holding it |
| Seqs.Remove | src/store/settingsStore.js:242 | `filter(id => id !== appId)` drops every copy of the value and keeps every other entry |
| Seqs.RemoveNoDup | src/store/settingsStore.js:242 | filtering a duplicate-free list keeps it duplicate-free |
| Seqs.RemoveAbsent | src/store/settingsStore.js:242 | filtering out a value that is absent changes nothing |
| StableSort.SortCorrect | src/components/CommandPalette.jsx:52 | the sort is a permutation, ordered by key, and equal keys keep their input order (stability) |
| StableSort.SortTwoKeys | src/components/CommandPalette.jsx:63-69 | with keys 0 and 1 the sorted list is the key-0 entries then the key-1 entries, each in input order |
| FileSystem.LookupAppend | src/App.jsx:380-384 | walking `p + q` is walking `p` and then walking `q` from where it ended |
| FileSystem.LookupFailureIsFinal | src/App.jsx:382 | once a segment is missing, every longer walk fails too |
| FileSystem.LookupThroughFile | src/App.jsx:445-452 | a file has no children: any non-empty walk past a file fails |
| FileSystem.PrefixOfResolvedIsDir | src/App.jsx:445-452 | every proper prefix of a path that resolves is a directory |
| FileSystem.LookupChild | src/App.jsx:380-384 | extending a directory path by one of its entries resolves to that entry |
| FileSystem.SampleLookups | src/App.jsx:358-375 | the tree's shape: `/home/user/projects` resolves, `/home/nope` does not, nothing lies under `resume.pdf` |
| Explorer.Navigate | src/App.jsx:387-394 | a directory is entered; a file keeps the path and launches by its app name `ecoscan` or `skills`; failing that a PDF launches `resume` and any other file launches nothing |
| Explorer.Back | src/App.jsx:401 | back drops the last segment only while more than one remains |
| Explorer.NavigateKeepsDirectory | src/App.jsx:386-394 | entering a listed directory keeps the path naming a directory |
| Explorer.BackKeepsDirectory | src/App.jsx:401 | going back keeps the path naming a directory |
| Explorer.SampleLaunches | src/App.jsx:365-369 | opening `resume.pdf` launches the resume and `ecoscan_web` launches EcoScan |
| Terminal.ChangeDir | src/App.jsx:441-459 | `cd` without a non-empty operand prints "missing operand"; `..` goes up one level unless one segment is left; a target naming a directory under the current one is entered; any other target prints "No such directory" and stays |
| Terminal.Run | src/App.jsx:434-461 | each command prints at most one line; only `cd` moves; only `skills` and `3d` launch |
| Terminal.EnterShape | src/App.jsx:428-463 | `clear` empties history and input and keeps the directory; any other command appends the prompt echo and at most one line, and empties the input |
| Terminal.EnterLaunches | src/App.jsx:437-438 | Enter launches `skills` for `skills`, `terminal3d` for `3d`, and nothing otherwise |
| Terminal.UnknownCommand | src/App.jsx:460 | an unknown word appends exactly the echo and "command not found" |
| Terminal.CwdChanges | src/App.jsx:441-457 | the directory changes only through `cd`: up one level on `..`, or into `cwd + [target]` when that is a directory |
| Terminal.CdMoves | src/App.jsx:441-454 | the converse: `cd` with an operand naming a directory under the current one enters it, and `cd ..` goes up while more than one segment is left |
| Terminal.EnterKeepsCwdValid | src/App.jsx:423-457 | the working directory always names a directory and never becomes empty |
| Terminal.CdMissingOperand | src/App.jsx:443 | a bare `cd` prints "missing operand" and stays put |
| Puzzle.Move | src/App.jsx:134-148 | a move is a swap of the clicked tile and the blank when they are neighbours (a permutation of the grid), else nothing; it counts one move and latches `solved` |
| Puzzle.AdjacentIsOtherCell | src/App.jsx:135-138 | a neighbour of a board cell is a different cell and never the -1 of a missing blank |
| Puzzle.MoveKeepsPermutation | src/App.jsx:140-142 | a move keeps the grid a permutation of 0..15 |
| Puzzle.SolvedIsGoal | src/App.jsx:146 | a permutation with 1..15 in cells 0..14 is exactly the start grid |
| Puzzle.MoveUndo | src/App.jsx:134-148 | clicking the cell the blank came from restores the grid |
| Puzzle.BlankFollowsMove | src/App.jsx:135-141 | after a move the blank sits in the clicked cell |
| Puzzle.NoBlankNoMove | src/App.jsx:135-139 | without a blank (`indexOf` gives -1) no tile moves |
| Desktop.VisibleIsFilter | src/App.jsx:531 | the visible windows are exactly the non-minimised ones, in order (the generic filter) |
| Desktop.VisibleMembers | src/App.jsx:531 | every visible window is a non-minimised window of the desk, and every non-minimised window is visible |
| Desktop.Find | src/App.jsx:556 | `windows.find` is absent exactly when no window has the id |
| Desktop.Launch | src/App.jsx:546-575 | launching focuses the app; a new app appends one window; an existing one is restored in place |
| Desktop.LaunchKeepsUnique | src/App.jsx:556-572 | launching keeps window ids distinct |
| Desktop.LaunchIdempotent | src/App.jsx:556-574 | launching the same app twice is launching it once |
| Desktop.LaunchFocusValid | src/App.jsx:561-573 | after a launch the focused id names a visible window |
| Desktop.LaunchKeepsRegistered | src/App.jsx:546-575 | every window belongs to a registered application |
| Desktop.WindowCountBound | src/App.jsx:490-503 | with distinct registered ids there are never more windows than applications |
| Desktop.Close | src/App.jsx:577-580 | closing removes every window with the id, keeps the others in order, and leaves the focus untouched |
| Desktop.CloseUndoesLaunch | src/App.jsx:546-580 | closing a freshly launched app leaves the same windows as closing it before the launch |
| Desktop.CloseKeepsUnique | src/App.jsx:578 | closing keeps window ids distinct |
| Desktop.CloseKeepsRegistered | src/App.jsx:578 | closing keeps every window registered |
| Desktop.CloseTwice | src/App.jsx:578 | closing twice is closing once |
| Desktop.CloseLeavesFocusDangling | src/App.jsx:577-580 | after launching About and closing it, the focus still names About while no window has that id |
| Desktop.ToggleMax | src/App.jsx:582 | only the named window's `max` flips; focus and other windows stay |
| Desktop.ToggleMaxInvolution | src/App.jsx:582 | toggling twice restores the desk |
| Desktop.Minimize | src/App.jsx:584-591 | the named window is minimised; if it had focus, focus moves to the first other visible window or to none |
| Desktop.MinimizeSnapshotAgrees | src/App.jsx:585-588 | the stale `windows` snapshot used for the new focus gives the same list as the updated windows |
| Desktop.MinimizeKeepsFocusValid | src/App.jsx:584-591 | with a valid focus, minimising keeps the focus valid |
| Desktop.ActiveIndex | src/App.jsx:533 | `findIndex` gives the first window with the focused id, or -1 |
| Desktop.AltTab | src/App.jsx:529-539 | Alt+Tab keeps the windows; with drawn windows it focuses the one after the first drawn window holding the focus, wrapping, or the first drawn window when none holds it; with none drawn nothing changes |
| Desktop.NextAfterActive | src/App.jsx:533-534 | `(findIndex + 1) % length` is the position after the first match, wrapping, and 0 when nothing matches |
| Desktop.AltTabAfterClose | src/App.jsx:517-539 | after Escape closes the focused window, Alt+Tab focuses the first drawn window |
| Desktop.AltTabKeepsFocusValid | src/App.jsx:529-539 | Alt+Tab keeps the focus valid |
| Desktop.AltTabStep | src/App.jsx:533-536 | from the k-th visible window Alt+Tab focuses the next one, wrapping at the end |
| Desktop.AltTabCycles | src/App.jsx:533-536 | n Alt+Tabs advance the focus by n places around the visible windows |
| Desktop.AltTabFullCircle | src/App.jsx:529-539 | as many Alt+Tabs as there are visible windows give back the same desk |
| Desktop.Focus | src/App.jsx:701 | a click on a window focuses it and changes no window |
| Desktop.FocusKeepsFocusValid | src/App.jsx:701 | pressing a drawn window leaves a valid focus |
| Desktop.TaskbarClick | src/App.jsx:737-743 | a taskbar click restores the window if it is minimised and focuses it |
| Desktop.TaskbarClickKeepsFocusValid | src/App.jsx:737-743 | clicking an open window's button keeps ids distinct, restores that window in place, leaves every other window alone, and leaves a valid focus |
| Settings.RequirementsMatchTable | src/store/settingsStore.js:5-62 | the thresholds the trackers test are the table's `requirement` fields, and Full Tour's inline `3` |
| Settings.FindAchievement | src/store/settingsStore.js:219 | the lookup finds a table entry with the id, and is absent exactly when no entry has it |
| Settings.AddNotification | src/store/settingsStore.js:104-110 | appends one notification stamped with the time and changes nothing else |
| Settings.RemoveNotification | src/store/settingsStore.js:111-114 | drops every notification with the id, keeps every other one in order with its number of copies unchanged, and changes nothing else |
| Settings.RemoveUndoesAdd | src/store/settingsStore.js:104-114 | dismissing a just-added notification by its stamp is dismissing that stamp before the add |
| Settings.Unlock | src/store/settingsStore.js:212-228 | the id is added once; the first unlock of a defined achievement queues exactly its notification; a repeat changes nothing |
| Settings.UnlockKeepsSet | src/store/settingsStore.js:214-215 | unlocking keeps the achievement list duplicate-free and only extends it |
| Settings.UnlockIdempotent | src/store/settingsStore.js:214 | a second unlock changes nothing, at any time |
| Settings.RepeatedUnlockNotifiesOnce | src/store/settingsStore.js:212-228 | however often an id is unlocked, at most one notification is queued for it |
| Settings.UnlockAppendsNotifications | src/store/settingsStore.js:220-225 | unlocking only appends to the notification queue |
| Settings.TrackAppOpen | src/store/settingsStore.js:129-163 | a known app is a no-op; a new one is recorded (except a first section visit, whose record the stale write undoes); Explorer and Full Tour unlock exactly at their thresholds |
| Settings.RecordOpen | src/store/settingsStore.js:133-144 | the first write adds the app to the opened list and unlocks Explorer at three |
| Settings.RecordSection | src/store/settingsStore.js:148-159 | the second write replaces progress by the snapshot plus the section and unlocks Full Tour at three |
| Settings.TrackAppOpenLosesSectionApps | src/store/settingsStore.js:135-156 | on a fresh store, opening About leaves the opened list empty; a second open records it |
| Settings.TrackAppOpenIdempotent | src/store/settingsStore.js:132 | opening a counted app again changes nothing |
| Settings.TrackCommand | src/store/settingsStore.js:166-178 | one more command; Terminal Master is held exactly when held before or the count reaches five; the history and the skip-boot flag are kept |
| Settings.CommandCount | src/store/settingsStore.js:166-178 | n commands add n, with the Terminal Master threshold |
| Settings.TerminalMasterAtFive | src/store/settingsStore.js:166-178 | from a fresh store, Terminal Master appears exactly from the fifth command |
| Settings.TrackShortcut | src/store/settingsStore.js:197-209 | one more shortcut; Power User is held exactly when held before or the count reaches three |
| Settings.ShortcutCount | src/store/settingsStore.js:197-209 | n shortcuts add n, and Power User is held exactly when held before or the count reached three |
| Settings.PowerUserAtThree | src/store/settingsStore.js:197-209 | from a fresh store, Power User appears exactly from the third shortcut |
| Settings.TrackSnakeScore | src/store/settingsStore.js:181-194 | the high score becomes the larger of the old one and the score; Snake Charmer at ten; the rest of the progress, the history and the skip-boot flag are kept |
| Settings.HighScoreCommutes | src/store/settingsStore.js:185-192 | the progress after two games does not depend on their order |
| Settings.CheckNightOwl | src/store/settingsStore.js:231-236 | Night Owl is unlocked exactly at night hours, and the store is unchanged otherwise; the progress, the history and the skip-boot flag are always kept |
| Settings.NightHours | src/store/settingsStore.js:233 | the night hours are 22, 23 and 0 to 4 |
| Settings.AddToHistory | src/store/settingsStore.js:240-246 | the app heads the history, followed by the newest entries of the old history without it, in order, up to five entries in all; the history stays duplicate-free |
| Settings.AddToHistoryIdempotent | src/store/settingsStore.js:240-246 | recording the same app twice in a row is recording it once |
| Settings.AddToHistoryKeepsOthers | src/store/settingsStore.js:242-244 | when nothing is cut off, every earlier entry is still present |
| Palette.FuzzyMatch | src/components/CommandPalette.jsx:26-39 | the fuzzy test holds exactly when the lower-cased query is a subsequence of the lower-cased text |
| Palette.ScanIsSubseq | src/components/CommandPalette.jsx:32-38 | the greedy scan reaches the end of the query exactly when the rest of the query is a subsequence of the rest of the text |
| Palette.ContainsIsSubseq | src/components/CommandPalette.jsx:30 | a substring is a subsequence |
| Palette.ShortcutIsRedundant | src/components/CommandPalette.jsx:30-38 | the `includes` shortcut never changes the answer of the scan |
| Palette.EmptyQueryMatches | src/components/CommandPalette.jsx:26-39 | the empty query matches every text |
| Palette.LongQueryFails | src/components/CommandPalette.jsx:26-39 | a query longer than the text never matches |
| Palette.SomeKeyword | src/components/CommandPalette.jsx:60 | `keywords.some(...)` holds exactly when some keyword matches |
| Palette.Matching | src/components/CommandPalette.jsx:57-62 | the filter keeps exactly the entries that match, from the list |
| Palette.Ranked | src/components/CommandPalette.jsx:57-70 | a non-blank search lists exactly the matching entries, each once, title hits first, each group in list order |
| Palette.GroupsPartition | src/components/CommandPalette.jsx:63-69 | title hits and the rest together are a permutation of the list |
| Palette.GroupsOfMatchingInOrder | src/components/CommandPalette.jsx:57-69 | both groups of the matches keep the palette's list order |
| Palette.RecentOthersPartition | src/components/CommandPalette.jsx:51-54 | recent and other entries together are a permutation of the list |
| Palette.BlankList | src/components/CommandPalette.jsx:49-56 | a blank search lists every entry once: history entries first, by history position, then the rest in list order |
| Palette.BlankListsEverything | src/components/CommandPalette.jsx:49-56 | the blank-search list has every application exactly once |
| Palette.Filtered | src/components/CommandPalette.jsx:48-71 | a blank search gives the history-ordered list, any other the ranked matches |
| Palette.Down | src/components/CommandPalette.jsx:92-94 | ArrowDown moves one on but never past the last entry |
| Palette.Up | src/components/CommandPalette.jsx:95-97 | ArrowUp moves one back but never before the first entry |
| Palette.SelectionStaysInRange | src/components/CommandPalette.jsx:92-97 | inside a non-empty list the selection stays inside it |
| Palette.UpUndoesDown | src/components/CommandPalette.jsx:92-97 | Down then Up returns to the entry unless the end stopped Down |
| Palette.ArrowsUndo | src/components/CommandPalette.jsx:91-97 | at the key-handler level, ArrowDown then ArrowUp returns to the entry unless it was the last one |
| Palette.HandleKey | src/components/CommandPalette.jsx:91-103 | Enter on an existing entry launches exactly that entry; ArrowDown selects one further but not past the last entry, ArrowUp one back but not before the first; only the arrows select; Escape and only Escape dismisses |
| HoloTerminal.BlockLines | src/components/apps/App3DTerminal.jsx:228-264 | a printed block is its lines in order |
| HoloTerminal.Operand | src/components/apps/App3DTerminal.jsx:275 | `parts[1]` is defined exactly when there are two tokens |
| HoloTerminal.ChangeDir | src/components/apps/App3DTerminal.jsx:274-298 | `cd` without a non-empty operand complains and stays; `..` goes up unless at the top; a listed directory is entered; any other target prints "No such directory" and stays |
| HoloTerminal.Respond | src/components/apps/App3DTerminal.jsx:227-302 | only `skills` launches (the Skills app); only `cd` moves; an unknown word gets "command not found" |
| HoloTerminal.HandleCmd | src/components/apps/App3DTerminal.jsx:222-306 | `clear` empties history and input; any other command appends the echo and then its output, and empties the input |
| HoloTerminal.Dispatch | src/components/apps/App3DTerminal.jsx:225-306 | after parsing, a non-`clear` command's shell is the echo, its reply, and the reply's directory |
| HoloTerminal.CdWithoutOperand | src/components/apps/App3DTerminal.jsx:278-281 | a bare `cd` appends the echo and "missing operand" and stays put |
| HoloTerminal.UnknownCommandReply | src/components/apps/App3DTerminal.jsx:300-301 | an unknown word appends exactly the echo and "command not found" |
| HoloTerminal.HandleCmdKeepsHome | src/components/apps/App3DTerminal.jsx:283-294 | the working directory always starts at `home` |
| HoloTerminal.CdThenBack | src/components/apps/App3DTerminal.jsx:283-294 | entering a listed directory and then `..` returns to the start |
| HoloTerminal.CdUpAtTop | src/components/apps/App3DTerminal.jsx:283-288 | `..` with one segment left stays put |
| HoloTerminal.CdDepth | src/components/apps/App3DTerminal.jsx:274-298 | one `cd` changes the depth by at most one and never empties the path |
| Projects.FilterProjects | src/components/apps/AppProjects.jsx:182-189 | exactly the projects passing both the search test and the technology test, in list order |
| Projects.Filtered | src/components/apps/AppProjects.jsx:182 | the window shows exactly the listed projects passing the search and the tech test, as a sub-list in list order |
| Projects.EmptySearchAllShowsEverything | src/components/apps/AppProjects.jsx:179-189 | the initial state (empty search, `All`) shows every project |
| Projects.FilterNarrowsAll | src/components/apps/AppProjects.jsx:186-188 | a technology button narrows the `All` list and keeps its order |
| Projects.CDoesNotMatchCpp | src/components/apps/AppProjects.jsx:187 | the tech test is whole-entry equality, so `C` does not select the C++ project |
| Grub.Left | src/components/three/Boot3D.jsx:285-286 | ArrowLeft moves one to the left, wrapping from the first option to the last |
| Grub.Right | src/components/three/Boot3D.jsx:287-288 | ArrowRight moves one to the right, wrapping from the last option to the first |
| Grub.HandleKey | src/components/three/Boot3D.jsx:284-291 | the arrows move the selection as `Left` and `Right` do; Enter and only Enter boots, and it boots the selected option's id; other keys change nothing |
| Grub.Select | src/components/three/Boot3D.jsx:284-291 | booting emits the selected option's id, one of the three boot ids |
| Grub.Click | src/components/three/Boot3D.jsx:328-330 | clicking a cube selects it without booting |
| Grub.LeftRightInverse | src/components/three/Boot3D.jsx:285-288 | Left and Right undo each other |
| Grub.ArrowKeysInverse | src/components/three/Boot3D.jsx:284-288 | at the key handler, ArrowLeft then ArrowRight (or the reverse) restores the selection and boots nothing |
| Grub.RightCycles | src/components/three/Boot3D.jsx:285-288 | three presses in one direction come back to the start |
| Grub.EveryIdBootable | src/components/three/Boot3D.jsx:276-280 | every boot id is the id of some option |
| Stage.Start | src/App.jsx:778-788 | the first screen is the desktop when skip-boot is stored, else off |
| Stage.ChooseScreen | src/App.jsx:850-854 | `desktop`, `cyberworld` and `resume` map to their screens; anything else stays on the menu |
| Stage.Step | src/App.jsx:790-870 | each event's effect: ticks count up by 2000 and then schedule the menu, and do nothing outside the BIOS count; the timer opens the menu only when pending and otherwise does nothing; a mount with the skip flag lands on the desktop; the power button goes from off to BIOS; Skip lands on the desktop and stores the flag; a menu choice goes to its screen; Exit returns from the 3D world or resume to the menu; Skip keeps the counter and leaves a pending timer pending; every event a screen does not react to leaves the state unchanged; a screen only changes through its own buttons or the timer |
| Stage.StartInv | src/App.jsx:778-788 | the first screen satisfies the counter invariant |
| Stage.StepKeepsInv | src/App.jsx:790-804 | the counter stays a multiple of 2000 in 0..64000, and the timer is pending only at the top |
| Stage.RunKeepsInv | src/App.jsx:790-804 | the invariant holds after any sequence of events |
| Stage.BiosCount | src/App.jsx:793-800 | after n <= 32 ticks the counter reads 2000 n |
| Stage.LongBootReachesMenu | src/App.jsx:793-800 | power on, 33 ticks and the timer reach the menu with the counter at 64000 |
| Stage.SkipReachesDesktop | src/App.jsx:783-815 | Skip from off, BIOS or the menu reaches the desktop and stores the flag; a stored flag starts on the desktop |
| Stage.SkipRacesGrubTimer | src/App.jsx:797-813 | a Skip while the menu timer is pending reaches the desktop, and the timer then replaces it by the menu |
| Stage.DesktopIsFinal | src/App.jsx:866 | with no timer pending, no event leaves the desktop |
| Stage.MenuChoicesAccepted | src/App.jsx:850-868 | the three menu options lead to the desktop, the 3D world and the resume, in that order, and the last two return to the menu on exit |
| Session.LaunchApp | src/App.jsx:546-575 | a launch counts the app in the store and opens or restores its window |
| Session.DesktopKey | src/App.jsx:507-540 | Ctrl/Cmd+K opens the palette; Escape closes the palette, else the achievements panel, else the focused window, else does nothing; Alt+Tab cycles; shortcuts are counted; every other key, including a plain "k" and a plain Tab, does nothing |
| Session.PaletteLaunch | src/components/CommandPalette.jsx:121-126 | a palette launch records the history, counts a shortcut, counts the open for the achievements in that order, launches, closes the palette and leaves the achievements panel alone |
| Session.PaletteEntriesLaunchable | src/components/CommandPalette.jsx:11-24 | every palette entry is a registered desktop application |
| Session.PaletteLaunchFocuses | src/components/CommandPalette.jsx:121-126 | after a palette launch the app heads the history and its window has focus |
| Session.EscapeTwiceIsOnce | src/App.jsx:517-525 | with no overlay open, a second Escape changes nothing |
| Session.AltTabCountsShortcut | src/App.jsx:529-531 | Alt+Tab counts a shortcut even with no window open |
| Session.LaunchAppKeepsInv | src/App.jsx:546-575 | launches keep ids distinct and registered, the history duplicate-free, and the window count bounded |
| Session.DesktopKeyKeepsInv | src/App.jsx:507-540 | key presses keep the session invariant |
| Session.PaletteLaunchKeepsInv | src/components/CommandPalette.jsx:121-126 | palette launches keep the session invariant |

## Left out

- Rendering, animation, audio, the 3D scenes, the particle and matrix effects, and the CRT overlay. They produce no state the core reads.
- Persistence to local storage. The store is a value; loading and saving are not modelled.
- Timers are events. The 50 ms BIOS interval is `Tick`, the 500 ms menu timer is `GrubTimeout`, and the 300 ms glitch flag is not modelled.
- The clock and the hour are parameters (`now`, `hour`). The hour is not constrained to 0..23.
- The store's plain setters (volume, mute, theme, visual toggles) and `addMinimized`/`removeMinimized`: they copy an argument into a field and nothing reads them here. `Settings.SetSkipBoot` is the one setter the boot flow uses.
- `curious_cat` and `speed_demon` have table entries, but no code unlocks them; `projectsExpanded` and `bootTime` are never written.
- `trackCommand` has no caller among the modelled files. It is modelled as written.
- Snake, the dashboard, EcoScan, the resume, the about and contact pages, the skills orbit, and the puzzle's shuffle and timer are application bodies outside this core.
- Palette selection resets to 0 when the search changes, and the input is cleared on open. These are effects on the palette's local state, not modelled.
- The palette's key listener and the desktop's key listener run side by side. Each is modelled as its own function (`Palette.HandleKey`, `Session.DesktopKey`), not interleaved.
- The component, icon and presentation fields of windows, palette entries, projects and boot options.
- The holo shell's HTML lines are abstracted to a `Line` value that names each printed line.
- Text.Lower: lower-cases ASCII letters only. JavaScript's `toLowerCase` also maps other Unicode letters, and some of them to ASCII: U+212A KELVIN SIGN becomes `k`. So a typed command or search holding such letters is compared differently. For example, the holo shell runs "S\u212AILLS" as `skills`, but the model answers "command not found". The constants of this core (app keys, titles, keywords, command names) are ASCII, so only typed input is affected.
- FileSystem.LookupAppend: the root pseudo-node `{ children: FILE_SYSTEM }` is modelled as a directory. Its missing `type` field is never read, because every lookup that is tested for a directory is non-empty.
- FileSystem.LookupAppend: JavaScript object lookup also finds inherited keys such as `constructor`. Looking up such a name is modelled as missing; for `cd` and the explorer the outcome is the same ("No such directory").

=== FILE: desktop.dfy ===
/**
 * The window manager of the desktop (`Desktop` in src/App.jsx): an ordered
 * collection of window records and the id of the active (focused) window.
 * A window's id is the key of the application it hosts, so each application
 * has at most one window.
 */
module Desktop {
  import opened Wrappers
  import opened Seqs

  /**
   * One open application. `z` is the stacking hint written at creation and
   * never read back; `data` is the launch payload.
   */
  datatype Window = Window(id: string, title: string, data: Option<string>, z: int, max: bool, minimized: bool)

  datatype Desk = Desk(windows: seq<Window>, activeId: Option<string>)

  /** The application registry `APPS`: key to window title. */
  const Apps: map<string, string> := map[
    "terminal" := "Terminal", "terminal3d" := "Holo Terminal", "explorer" := "Files",
    "about" := "About Me", "projects" := "Projects", "contact" := "Contact",
    "ecoscan" := "EcoScan", "resume" := "Resume", "snake" := "Snake",
    "dashboard" := "Dashboard", "puzzle" := "Puzzle", "skills" := "Skills Orbit"
  ]

  const Empty: Desk := Desk([], None)

  /** No two windows share an id. */
  ghost predicate UniqueIds(ws: seq<Window>)
  {
    forall i, j :: 0 <= i < j < |ws| ==> ws[i].id != ws[j].id
  }

  /** Some window has this id. */
  predicate HasWindow(ws: seq<Window>, id: string)
  {
    exists i :: 0 <= i < |ws| && ws[i].id == id
  }

  predicate IsVisible(w: Window) { !w.minimized }

  /** The windows that are drawn: `windows.filter(w => !w.minimized)`. */
  function Visible(ws: seq<Window>): seq<Window>
  {
    if ws == [] then []
    else if IsVisible(ws[0]) then [ws[0]] + Visible(ws[1..])
    else Visible(ws[1..])
  }

  /** `Visible` keeps exactly the windows that are not minimized, in order. */
  lemma {:induction false} VisibleIsFilter(ws: seq<Window>)
    ensures Visible(ws) == Filter(IsVisible, ws)
  {
    if ws != [] {
      VisibleIsFilter(ws[1..]);
    }
  }

  lemma VisibleMembers(ws: seq<Window>)
    ensures forall i :: 0 <= i < |Visible(ws)| ==> Visible(ws)[i] in ws && !Visible(ws)[i].minimized
    ensures forall i :: 0 <= i < |ws| && !ws[i].minimized ==> ws[i] in Visible(ws)
  {
    VisibleIsFilter(ws);
  }

  /** The active id, when present, names an open window that is not minimized. */
  ghost predicate FocusValid(d: Desk)
  {
    d.activeId.Some? ==> exists i :: 0 <= i < |d.windows| && d.windows[i].id == d.activeId.value
                                   && !d.windows[i].minimized
  }

  /** `windows.find(w => w.id === id)`. */
  function Find(ws: seq<Window>, id: string): (r: Option<Window>)
    ensures r.None? <==> !HasWindow(ws, id)
    ensures r.Some? ==> r.value in ws && r.value.id == id
  {
    if ws == [] then None
    else if ws[0].id == id then Some(ws[0])
    else
      var r := Find(ws[1..], id);
      assert HasWindow(ws, id) ==> ws[0].id == id || HasWindow(ws[1..], id) by {
        if HasWindow(ws, id) {
          var i :| 0 <= i < |ws| && ws[i].id == id;
          if i > 0 { assert ws[1..][i - 1].id == id; }
        }
      }
      r
  }

  /** Sets `minimized` of the windows with this id, leaving all else alone. */
  function SetMinimized(ws: seq<Window>, id: string, b: bool): (r: seq<Window>)
    ensures |r| == |ws|
    ensures forall i :: 0 <= i < |ws| ==>
      r[i] == if ws[i].id == id then ws[i].(minimized := b) else ws[i]
  {
    seq(|ws|, i requires 0 <= i < |ws| => if ws[i].id == id then ws[i].(minimized := b) else ws[i])
  }

  /**
   * `launch(key, data)`. A key with no window gets a new record appended,
   * stacked at the old count plus one, neither maximized nor minimized. A key
   * with a window keeps the count; only that window may change, and only by
   * being restored. Either way the key becomes active. The key must be
   * registered: the source reads `APPS[key].title`.
   */
  function Launch(d: Desk, key: string, data: Option<string>): (r: Desk)
    requires key in Apps
    ensures r.activeId == Some(key)
    ensures !HasWindow(d.windows, key) ==>
      && |r.windows| == |d.windows| + 1
      && r.windows[..|d.windows|] == d.windows
      && r.windows[|d.windows|] == Window(key, Apps[key], data, |d.windows| + 1, false, false)
    ensures HasWindow(d.windows, key) ==>
      && |r.windows| == |d.windows|
      && forall i :: 0 <= i < |d.windows| ==>
           || r.windows[i] == d.windows[i]
           || (d.windows[i].id == key && r.windows[i] == d.windows[i].(minimized := false))
    ensures UniqueIds(d.windows) ==>
      forall i :: 0 <= i < |r.windows| && r.windows[i].id == key ==> !r.windows[i].minimized
  {
    match Find(d.windows, key)
    case Some(w) =>
      Desk(if w.minimized then SetMinimized(d.windows, key, false) else d.windows, Some(key))
    case None =>
      Desk(d.windows + [Window(key, Apps[key], data, |d.windows| + 1, false, false)], Some(key))
  }

  /**
   * `close(id)`: drops every window with this id and keeps the others in
   * order. The active id is not touched, so it may name a window that is gone.
   */
  function Close(d: Desk, id: string): (r: Desk)
    ensures r.activeId == d.activeId
    ensures !HasWindow(r.windows, id)
    ensures forall i :: 0 <= i < |d.windows| && d.windows[i].id != id ==> d.windows[i] in r.windows
    ensures IsSubseq(r.windows, d.windows)
  {
    WithoutIsSubseq(d.windows, id);
    Desk(Without(d.windows, id), d.activeId)
  }

  /** `ws.filter(w => w.id !== id)`. */
  function Without(ws: seq<Window>, id: string): (r: seq<Window>)
    ensures forall i :: 0 <= i < |r| ==> r[i].id != id && r[i] in ws
    ensures forall i :: 0 <= i < |ws| && ws[i].id != id ==> ws[i] in r
  {
    if ws == [] then []
    else if ws[0].id != id then [ws[0]] + Without(ws[1..], id)
    else Without(ws[1..], id)
  }

  lemma {:induction false} WithoutIsSubseq(ws: seq<Window>, id: string)
    ensures IsSubseq(Without(ws, id), ws)
  {
    if ws != [] {
      WithoutIsSubseq(ws[1..], id);
      if ws[0].id == id {
        SubseqSkip(Without(ws[1..], id), ws);
      }
    }
  }

  lemma {:induction false} WithoutAppend(xs: seq<Window>, ys: seq<Window>, id: string)
    ensures Without(xs + ys, id) == Without(xs, id) + Without(ys, id)
  {
    if xs == [] {
      assert xs + ys == ys;
    } else {
      assert (xs + ys)[1..] == xs[1..] + ys;
      WithoutAppend(xs[1..], ys, id);
    }
  }

  /** Flips `max` of the windows with this id, leaving all else alone. */
  function ToggleMax(d: Desk, id: string): (r: Desk)
    ensures r.activeId == d.activeId && |r.windows| == |d.windows|
    ensures forall i :: 0 <= i < |d.windows| ==>
      r.windows[i] == if d.windows[i].id == id then d.windows[i].(max := !d.windows[i].max) else d.windows[i]
  {
    var ws := d.windows;
    Desk(seq(|ws|, i requires 0 <= i < |ws| => if ws[i].id == id then ws[i].(max := !ws[i].max) else ws[i]),
         d.activeId)
  }

  /**
   * `minimize(id)`: the window is minimized. If it was active, focus moves to
   * the first other window that is not minimized, read from the collection as
   * it was before the update, or is cleared when there is none; otherwise the
   * active id stays.
   */
  function Minimize(d: Desk, id: string): (r: Desk)
    ensures r.windows == SetMinimized(d.windows, id, true)
    ensures d.activeId != Some(id) ==> r.activeId == d.activeId
    ensures d.activeId == Some(id) ==>
      var others := VisibleExcept(d.windows, id);
      r.activeId == if |others| > 0 then Some(others[0].id) else None
  {
    var ws := SetMinimized(d.windows, id, true);
    if d.activeId == Some(id) then
      var others := VisibleExcept(d.windows, id);
      Desk(ws, if |others| > 0 then Some(others[0].id) else None)
    else Desk(ws, d.activeId)
  }

  /** `windows.filter(w => w.id !== id && !w.minimized)`. */
  function VisibleExcept(ws: seq<Window>, id: string): (r: seq<Window>)
    ensures forall i :: 0 <= i < |r| ==> r[i].id != id && !r[i].minimized && r[i] in ws
  {
    if ws == [] then []
    else if ws[0].id != id && !ws[0].minimized then [ws[0]] + VisibleExcept(ws[1..], id)
    else VisibleExcept(ws[1..], id)
  }

  /** The position of the active window among `ws`, or -1 (`findIndex`). */
  function ActiveIndex(ws: seq<Window>, active: Option<string>): (r: int)
    ensures -1 <= r < |ws|
    ensures r >= 0 ==> Some(ws[r].id) == active
    ensures r >= 0 ==> forall k :: 0 <= k < r ==> Some(ws[k].id) != active
    ensures r == -1 ==> forall k :: 0 <= k < |ws| ==> Some(ws[k].id) != active
  {
    if ws == [] then -1
    else if Some(ws[0].id) == active then 0
    else
      var k := ActiveIndex(ws[1..], active);
      if k == -1 then -1 else k + 1
  }

  /** `ws[k]` is the first window whose id is the active id. */
  ghost predicate FirstWithId(ws: seq<Window>, active: Option<string>, k: int)
  {
    0 <= k < |ws| && active == Some(ws[k].id) && forall j :: 0 <= j < k ==> active != Some(ws[j].id)
  }

  /** No window has the active id. */
  ghost predicate NoneWithId(ws: seq<Window>, active: Option<string>)
  {
    forall j :: 0 <= j < |ws| ==> active != Some(ws[j].id)
  }

  /**
   * Alt+Tab: among the windows that are not minimized, the one after the
   * active one becomes active, wrapping around; the first one when the active
   * id is not among them. Nothing changes when every window is minimized.
   */
  function AltTab(d: Desk): (r: Desk)
    ensures r.windows == d.windows
    ensures |Visible(d.windows)| == 0 ==> r == d
    ensures |Visible(d.windows)| > 0 ==>
      exists i :: 0 <= i < |Visible(d.windows)| && r.activeId == Some(Visible(d.windows)[i].id)
    ensures var vis := Visible(d.windows);
      forall k :: FirstWithId(vis, d.activeId, k) ==> r.activeId == Some(vis[Next(k, |vis|)].id)
    ensures var vis := Visible(d.windows);
      |vis| > 0 && NoneWithId(vis, d.activeId) ==> r.activeId == Some(vis[0].id)
  {
    var vis := Visible(d.windows);
    if |vis| > 0 then
      NextAfterActive(vis, d.activeId);
      var next := (ActiveIndex(vis, d.activeId) + 1) % |vis|;
      Desk(d.windows, Some(vis[next].id))
    else d
  }

  /**
   * The position Alt+Tab moves to: the one after the first window with the
   * active id, wrapping around, or the first when no window has it.
   */
  lemma NextAfterActive(vis: seq<Window>, active: Option<string>)
    requires |vis| > 0
    ensures var n := (ActiveIndex(vis, active) + 1) % |vis|;
      && 0 <= n < |vis|
      && (forall k :: FirstWithId(vis, active, k) ==> n == Next(k, |vis|))
      && (NoneWithId(vis, active) ==> n == 0)
  {
    var a := ActiveIndex(vis, active);
    if a >= 0 {
      ModIsNext(a, |vis|);
    }
  }

  /** Pressing the mouse on a window makes it active. */
  function Focus(d: Desk, id: string): (r: Desk)
    ensures r.windows == d.windows && r.activeId == Some(id)
  {
    Desk(d.windows, Some(id))
  }

  /** A window is pressed only where it is drawn, so the focus it takes is valid. */
  lemma FocusKeepsFocusValid(d: Desk, i: int)
    requires 0 <= i < |d.windows| && !d.windows[i].minimized
    ensures FocusValid(Focus(d, d.windows[i].id))
  {
  }

  /** Clicking a window's taskbar button restores it if minimized and makes it active. */
  function TaskbarClick(d: Desk, id: string): (r: Desk)
    ensures r.activeId == Some(id)
    ensures UniqueIds(d.windows) ==> r.windows == SetMinimized(d.windows, id, false)
  {
    match Find(d.windows, id)
    case Some(w) =>
      Desk(if w.minimized then SetMinimized(d.windows, id, false) else d.windows, Some(id))
    case None => Desk(d.windows, Some(id))
  }

  /**
   * A taskbar button belongs to an open window: clicking it keeps ids
   * distinct, restores that window in place, changes no other window, and
   * leaves a valid focus.
   */
  lemma TaskbarClickKeepsFocusValid(d: Desk, i: int)
    requires 0 <= i < |d.windows| && UniqueIds(d.windows)
    ensures var r := TaskbarClick(d, d.windows[i].id);
      && UniqueIds(r.windows) && FocusValid(r)
      && r.windows[i] == d.windows[i].(minimized := false)
      && forall k :: 0 <= k < |d.windows| && k != i ==> r.windows[k] == d.windows[k]
  {
    var r := TaskbarClick(d, d.windows[i].id);
    assert r.windows[i].id == d.windows[i].id && !r.windows[i].minimized;
  }

  // ----- Invariants and laws of the window operations -----

  /** Launching keeps ids unique: an existing key is never added again. */
  lemma LaunchKeepsUnique(d: Desk, key: string, data: Option<string>)
    requires key in Apps && UniqueIds(d.windows)
    ensures UniqueIds(Launch(d, key, data).windows)
  {
  }

  /**
   * Launching an application twice is launching it once: the second launch
   * finds the window restored and active, and changes nothing.
   */
  lemma LaunchIdempotent(d: Desk, key: string, a: Option<string>, b: Option<string>)
    requires key in Apps && UniqueIds(d.windows)
    ensures Launch(Launch(d, key, a), key, b) == Launch(d, key, a)
  {
    var d1 := Launch(d, key, a);
    LaunchKeepsUnique(d, key, a);
    assert HasWindow(d1.windows, key) by {
      if HasWindow(d.windows, key) {
        var i :| 0 <= i < |d.windows| && d.windows[i].id == key;
        assert d1.windows[i].id == key;
      } else {
        assert d1.windows[|d.windows|].id == key;
      }
    }
    var w := Find(d1.windows, key).value;
    var i :| 0 <= i < |d1.windows| && d1.windows[i] == w;
  }

  /** Closing an application undoes launching it, as far as the windows go. */
  lemma CloseUndoesLaunch(d: Desk, key: string, data: Option<string>)
    requires key in Apps
    ensures Close(Launch(d, key, data), key).windows == Close(d, key).windows
  {
    var ws := d.windows;
    if !HasWindow(ws, key) {
      var w := Window(key, Apps[key], data, |ws| + 1, false, false);
      assert Launch(d, key, data).windows == ws + [w];
      WithoutAppend(ws, [w], key);
    } else {
      var r := Launch(d, key, data).windows;
      RestoreThenWithout(ws, r, key);
    }
  }

  lemma {:induction false} RestoreThenWithout(ws: seq<Window>, r: seq<Window>, key: string)
    requires |r| == |ws|
    requires forall i :: 0 <= i < |ws| ==>
      || r[i] == ws[i]
      || (ws[i].id == key && r[i] == ws[i].(minimized := false))
    ensures Without(r, key) == Without(ws, key)
  {
    if ws != [] {
      RestoreThenWithout(ws[1..], r[1..], key);
    }
  }

  /** Closing keeps ids unique. */
  lemma CloseKeepsUnique(d: Desk, id: string)
    requires UniqueIds(d.windows)
    ensures UniqueIds(Close(d, id).windows)
  {
    WithoutKeepsUnique(d.windows, id);
  }

  lemma {:induction false} WithoutKeepsUnique(ws: seq<Window>, id: string)
    requires UniqueIds(ws)
    ensures UniqueIds(Without(ws, id))
  {
    if ws != [] {
      WithoutKeepsUnique(ws[1..], id);
      var rest := Without(ws[1..], id);
      forall k | 0 <= k < |rest| ensures rest[k].id != ws[0].id {
        var j :| 0 <= j < |ws[1..]| && ws[1..][j] == rest[k];
        assert ws[j + 1] == rest[k];
      }
    }
  }

  /** Maximizing twice restores the desktop. */
  lemma ToggleMaxInvolution(d: Desk, id: string)
    ensures ToggleMax(ToggleMax(d, id), id) == d
  {
    var r := ToggleMax(ToggleMax(d, id), id);
    assert r.windows == d.windows;
  }

  /**
   * Reading the collection before the update is harmless: the windows other
   * than the minimized one that were visible before are exactly those visible
   * after, so focus moves to the first window still drawn.
   */
  lemma {:induction false} MinimizeSnapshotAgrees(ws: seq<Window>, id: string)
    ensures VisibleExcept(ws, id) == Visible(SetMinimized(ws, id, true))
  {
    if ws != [] {
      MinimizeSnapshotAgrees(ws[1..], id);
      assert SetMinimized(ws, id, true)[1..] == SetMinimized(ws[1..], id, true);
    }
  }

  /** Launching leaves a valid focus: the launched window is active and drawn. */
  lemma LaunchFocusValid(d: Desk, key: string, data: Option<string>)
    requires key in Apps && UniqueIds(d.windows)
    ensures FocusValid(Launch(d, key, data))
  {
    var r := Launch(d, key, data);
    if HasWindow(d.windows, key) {
      var i :| 0 <= i < |d.windows| && d.windows[i].id == key;
      assert r.windows[i].id == key;
    } else {
      assert r.windows[|d.windows|].id == key;
    }
  }

  /** Minimizing keeps a valid focus valid (focus moves off the minimized window). */
  lemma MinimizeKeepsFocusValid(d: Desk, id: string)
    requires FocusValid(d)
    ensures FocusValid(Minimize(d, id))
  {
    var r := Minimize(d, id);
    if d.activeId == Some(id) {
      var others := VisibleExcept(d.windows, id);
      if |others| > 0 {
        var j :| 0 <= j < |d.windows| && d.windows[j] == others[0];
        assert r.windows[j] == others[0];
      }
    } else if d.activeId.Some? {
      var j :| 0 <= j < |d.windows| && d.windows[j].id == d.activeId.value && !d.windows[j].minimized;
      assert r.windows[j] == d.windows[j];
    }
  }

  /** Alt+Tab keeps a valid focus valid. */
  lemma AltTabKeepsFocusValid(d: Desk)
    requires FocusValid(d)
    ensures FocusValid(AltTab(d))
  {
    var vis := Visible(d.windows);
    VisibleMembers(d.windows);
    if |vis| > 0 {
      var w := vis[(ActiveIndex(vis, d.activeId) + 1) % |vis|];
      var j :| 0 <= j < |d.windows| && d.windows[j] == w;
    }
  }

  /**
   * `close` does not repair focus: closing the only, active window leaves the
   * active id naming no window.
   */
  lemma CloseLeavesFocusDangling()
    ensures var d := Launch(Empty, "about", None);
      FocusValid(d) && !FocusValid(Close(d, "about"))
  {
    var d := Launch(Empty, "about", None);
    assert d.windows == [Window("about", "About Me", None, 1, false, false)];
    assert d.windows[1..] == [];
    assert Without(d.windows, "about") == Without(d.windows[1..], "about") == [];
  }

  /**
   * Escape closes the focused window without moving the focus, so the next
   * Alt+Tab finds the focus among no drawn window and takes the first one.
   */
  lemma AltTabAfterClose(d: Desk, id: string)
    requires d.activeId == Some(id) && |Visible(Close(d, id).windows)| > 0
    ensures AltTab(Close(d, id)).activeId == Some(Visible(Close(d, id).windows)[0].id)
  {
    var c := Close(d, id);
    var vis := Visible(c.windows);
    VisibleMembers(c.windows);
    forall j | 0 <= j < |vis| ensures c.activeId != Some(vis[j].id) {
      var k :| 0 <= k < |c.windows| && c.windows[k] == vis[j];
    }
  }

  /** The visible windows of a collection with unique ids have unique ids. */
  lemma {:induction false} VisibleKeepsUnique(ws: seq<Window>)
    requires UniqueIds(ws)
    ensures UniqueIds(Visible(ws))
  {
    if ws != [] {
      VisibleKeepsUnique(ws[1..]);
      VisibleMembers(ws[1..]);
      var rest := Visible(ws[1..]);
      forall k | 0 <= k < |rest| ensures rest[k].id != ws[0].id {
        var j :| 0 <= j < |ws[1..]| && ws[1..][j] == rest[k];
        assert ws[j + 1] == rest[k];
      }
    }
  }

  /** Alt+Tab pressed `n` times. */
  function AltTabTimes(d: Desk, n: nat): Desk
  {
    if n == 0 then d else AltTab(AltTabTimes(d, n - 1))
  }

  /** The position after `k` among `m` drawn windows, wrapping to the first. */
  function Next(k: nat, m: nat): nat
  {
    if k + 1 < m then k + 1 else 0
  }

  /** `Next` applied `n` times. */
  function Advance(j: nat, n: nat, m: nat): nat
  {
    if n == 0 then j else Next(Advance(j, n - 1, m), m)
  }

  /** The wrap-around index arithmetic of Alt+Tab is `Next`. */
  lemma ModIsNext(k: nat, m: nat)
    requires k < m
    ensures (k + 1) % m == Next(k, m)
  {
  }

  /** Advancing `n <= m` places from `j < m` lands `n` further on, less `m` once wrapped. */
  lemma {:induction false} AdvanceWraps(j: nat, n: nat, m: nat)
    requires j < m && n <= m
    ensures Advance(j, n, m) == if j + n < m then j + n else j + n - m
  {
    if n > 0 {
      AdvanceWraps(j, n - 1, m);
    }
  }

  /**
   * Starting from the `j`-th drawn window, `n` presses of Alt+Tab leave the
   * windows alone and activate the drawn window `n` places further on,
   * wrapping around. Only the drawn windows need distinct ids.
   */
  lemma {:induction false} AltTabCycles(d: Desk, vis: seq<Window>, j: nat, n: nat)
    requires vis == Visible(d.windows) && UniqueIds(vis)
    requires j < |vis| && d.activeId == Some(vis[j].id)
    ensures Advance(j, n, |vis|) < |vis|
    ensures AltTabTimes(d, n) == Desk(d.windows, Some(vis[Advance(j, n, |vis|)].id))
  {
    if n > 0 {
      AltTabCycles(d, vis, j, n - 1);
      AltTabStep(AltTabTimes(d, n - 1), vis, Advance(j, n - 1, |vis|));
    }
  }

  /** One press of Alt+Tab from the `k`-th drawn window activates the `Next` one. */
  lemma AltTabStep(d: Desk, vis: seq<Window>, k: nat)
    requires vis == Visible(d.windows) && UniqueIds(vis)
    requires k < |vis| && d.activeId == Some(vis[k].id)
    ensures AltTab(d) == Desk(d.windows, Some(vis[Next(k, |vis|)].id))
  {
    ActiveIndexOfUnique(vis, k);
    ModIsNext(k, |vis|);
  }

  /** With unique ids, the position of a window's id is that window's position. */
  lemma ActiveIndexOfUnique(vis: seq<Window>, k: nat)
    requires UniqueIds(vis) && k < |vis|
    ensures ActiveIndex(vis, Some(vis[k].id)) == k
  {
  }

  /** As many presses as there are drawn windows bring focus back where it started. */
  lemma AltTabFullCircle(d: Desk, j: nat)
    requires UniqueIds(d.windows)
    requires j < |Visible(d.windows)| && d.activeId == Some(Visible(d.windows)[j].id)
    ensures AltTabTimes(d, |Visible(d.windows)|) == d
  {
    var vis := Visible(d.windows);
    VisibleKeepsUnique(d.windows);
    AltTabCycles(d, vis, j, |vis|);
    AdvanceWraps(j, |vis|, |vis|);
  }

  /** Every window hosts a registered application. */
  ghost predicate Registered(ws: seq<Window>)
  {
    forall i :: 0 <= i < |ws| ==> ws[i].id in Apps
  }

  /**
   * One window per application: with unique registered ids there are never
   * more windows than registered applications.
   */
  lemma WindowCountBound(ws: seq<Window>)
    requires UniqueIds(ws) && Registered(ws)
    ensures |ws| <= |Apps|
  {
    var ids := seq(|ws|, i requires 0 <= i < |ws| => ws[i].id);
    assert NoDup(ids);
    NoDupCard(ids);
    SubsetCard((set x | x in ids), Apps.Keys);
  }

  lemma LaunchKeepsRegistered(d: Desk, key: string, data: Option<string>)
    requires key in Apps && Registered(d.windows)
    ensures Registered(Launch(d, key, data).windows)
  {
  }

  lemma {:induction false} SubsetCard<T>(a: set<T>, b: set<T>)
    requires a <= b
    ensures |a| <= |b|
  {
    if a != {} {
      var x :| x in a;
      SubsetCard(a - {x}, b - {x});
    }
  }

  /** Closing twice is closing once. */
  lemma CloseTwice(d: Desk, id: string)
    ensures Close(Close(d, id), id) == Close(d, id)
  {
    WithoutTwice(d.windows, id);
  }

  lemma {:induction false} WithoutTwice(ws: seq<Window>, id: string)
    ensures Without(Without(ws, id), id) == Without(ws, id)
  {
    if ws != [] {
      WithoutTwice(ws[1..], id);
    }
  }

  lemma CloseKeepsRegistered(d: Desk, id: string)
    requires Registered(d.windows)
    ensures Registered(Close(d, id).windows)
  {
  }
}

=== FILE: explorer.dfy ===
/**
 * The file explorer application (`AppExplorer` in src/App.jsx): a current
 * path, a back button, and double-clicking an entry of the current directory.
 */
module Explorer {
  import opened Wrappers
  import opened FileSystem

  const InitialPath: seq<string> := ["home", "user"]

  /** What a double-click did: the new path and the application it launched, if any. */
  datatype Outcome = Outcome(path: seq<string>, launch: Option<string>)

  /**
   * `handleNavigate(key, item)`: a directory is entered; a file launches the
   * application its `appName` or file type names, and the path stays.
   */
  function Navigate(path: seq<string>, key: string, item: Node): (r: Outcome)
    ensures item.Dir? ==> r == Outcome(path + [key], None)
    ensures item.File? ==> r.path == path
    ensures r.launch.Some? ==> r.launch.value in {"ecoscan", "skills", "resume"}
    ensures item.File? && item.fileType == "pdf" && item.appName == None ==> r.launch == Some("resume")
    ensures item.File? && item.appName == Some("ecoscan") ==> r.launch == Some("ecoscan")
    ensures item.File? && item.appName == Some("skills") ==> r.launch == Some("skills")
    ensures item.File? && item.appName !in {Some("ecoscan"), Some("skills")} ==>
      r.launch == if item.fileType == "pdf" then Some("resume") else None
  {
    match item
    case Dir(_) => Outcome(path + [key], None)
    case File(fileType, appName, _) =>
      if appName == Some("ecoscan") then Outcome(path, Some("ecoscan"))
      else if appName == Some("skills") then Outcome(path, Some("skills"))
      else if fileType == "pdf" then Outcome(path, Some("resume"))
      else Outcome(path, None)
  }

  /** The back button: enabled only while the path has more than one segment. */
  function Back(path: seq<string>): (r: seq<string>)
    ensures |path| > 1 ==> r + [path[|path| - 1]] == path
    ensures |path| <= 1 ==> r == path
    ensures |path| >= 1 ==> |r| >= 1
  {
    if |path| > 1 then path[..|path| - 1] else path
  }

  /**
   * The explorer only ever shows a directory: entering an entry listed in the
   * current directory, or going back, keeps the path naming a directory.
   */
  lemma NavigateKeepsDirectory(path: seq<string>, key: string)
    requires IsDirPath(path) && key in GetPathContent(path).value.children
    ensures IsDirPath(Navigate(path, key, GetPathContent(path).value.children[key]).path)
  {
    LookupChild(path, key);
  }

  lemma BackKeepsDirectory(path: seq<string>)
    requires IsDirPath(path)
    ensures IsDirPath(Back(path))
  {
    if |path| > 1 {
      var p := path[..|path| - 1];
      assert p + [path[|path| - 1]] == path;
      PrefixOfResolvedIsDir(Root, p, [path[|path| - 1]]);
    }
  }

  /** Opening the sample files launches the applications they name. */
  lemma SampleLaunches()
    ensures Navigate(["home", "user"], "resume.pdf", File("pdf", None, "RESUME_VIEWER")).launch == Some("resume")
    ensures Navigate(["home", "user", "projects"], "ecoscan_web", File("app", Some("ecoscan"), "Launching EcoScan...")).launch == Some("ecoscan")
  {
  }
}

=== FILE: filesystem.dfy ===
/**
 * The static virtual file system of the desktop (`FILE_SYSTEM` in src/App.jsx)
 * and its path lookup (`getPathContent`), shared by the file explorer and the
 * 2D terminal's `cd`.
 */
module FileSystem {
  import opened Wrappers

  /**
   * A node is a directory with named children or a file. A file may name the
   * application it launches (`appName`).
   */
  datatype Node =
    | Dir(children: map<string, Node>)
    | File(fileType: string, appName: Option<string>, content: string)

  const Projects: Node := Dir(map[
    "ecoscan_web" := File("app", Some("ecoscan"), "Launching EcoScan..."),
    "skills.orbit" := File("app", Some("skills"), "Launching Skills Orbit...")
  ])

  const User: Node := Dir(map[
    "projects" := Projects,
    "resume.pdf" := File("pdf", None, "RESUME_VIEWER")
  ])

  /**
   * The walk starts from a node whose children are the top-level entries; that
   * starting node has no type of its own, which no caller ever inspects, so it
   * is a `Dir` here.
   */
  const Root: Node := Dir(map["home" := Dir(map["user" := User])])

  /**
   * Walks `path` from `node`, one child per segment; `None` as soon as a
   * segment is missing or a file is asked for a child.
   */
  function Lookup(node: Node, path: seq<string>): Option<Node>
  {
    if path == [] then Some(node)
    else match node
      case Dir(ch) => if path[0] in ch then Lookup(ch[path[0]], path[1..]) else None
      case File(_, _, _) => None
  }

  /** `getPathContent(path)`: lookup from the root. */
  function GetPathContent(path: seq<string>): Option<Node>
  {
    Lookup(Root, path)
  }

  /** `path` names a directory. */
  predicate IsDirPath(path: seq<string>)
  {
    GetPathContent(path).Some? && GetPathContent(path).value.Dir?
  }

  /** A walk along `p + q` is the walk along `p` followed by the walk along `q`. */
  lemma {:induction false} LookupAppend(n: Node, p: seq<string>, q: seq<string>)
    ensures Lookup(n, p + q) == (match Lookup(n, p)
                                 case None => None
                                 case Some(m) => Lookup(m, q))
  {
    if p != [] {
      assert (p + q)[0] == p[0] && (p + q)[1..] == p[1..] + q;
      if n.Dir? && p[0] in n.children {
        LookupAppend(n.children[p[0]], p[1..], q);
      }
    } else {
      assert p + q == q;
    }
  }

  /** Once a walk has failed, walking further fails too. */
  lemma LookupFailureIsFinal(n: Node, p: seq<string>, q: seq<string>)
    requires Lookup(n, p) == None
    ensures Lookup(n, p + q) == None
  {
    LookupAppend(n, p, q);
  }

  /** A file has no children: any non-empty walk from a file fails. */
  lemma LookupThroughFile(n: Node, p: seq<string>, q: seq<string>)
    requires Lookup(n, p).Some? && Lookup(n, p).value.File?
    requires q != []
    ensures Lookup(n, p + q) == None
  {
    LookupAppend(n, p, q);
  }

  /** Every proper prefix of a path that resolves names a directory. */
  lemma PrefixOfResolvedIsDir(n: Node, p: seq<string>, q: seq<string>)
    requires Lookup(n, p + q).Some? && q != []
    ensures Lookup(n, p).Some? && Lookup(n, p).value.Dir?
  {
    LookupAppend(n, p, q);
  }

  /** Extending a directory path by one of its entries resolves to that entry. */
  lemma LookupChild(p: seq<string>, key: string)
    requires IsDirPath(p) && key in GetPathContent(p).value.children
    ensures GetPathContent(p + [key]) == Some(GetPathContent(p).value.children[key])
  {
    LookupAppend(Root, p, [key]);
  }

  /** The documented sample lookups of the tree. */
  lemma SampleLookups()
    ensures GetPathContent([]) == Some(Root)
    ensures GetPathContent(["home", "user", "projects"]) == Some(Projects)
    ensures GetPathContent(["home", "nope"]) == None
    ensures GetPathContent(["home", "user", "resume.pdf", "x"]) == None
    ensures IsDirPath(["home", "user"]) && IsDirPath(["home"])
    ensures !IsDirPath(["home", "user", "resume.pdf"])
  {
    var home := Dir(map["user" := User]);
    assert "home" in Root.children && Root.children["home"] == home;
    assert "user" in home.children && home.children["user"] == User;
    assert "projects" in User.children && User.children["projects"] == Projects;
    var pdf := File("pdf", None, "RESUME_VIEWER");
    assert "resume.pdf" in User.children && User.children["resume.pdf"] == pdf;
    assert "nope" !in home.children;

    assert Lookup(User, ["projects"]) == Lookup(Projects, []);
    assert Lookup(home, ["user", "projects"]) == Lookup(User, ["projects"]);
    assert Lookup(Root, ["home", "user", "projects"]) == Lookup(home, ["user", "projects"]);

    assert Lookup(Root, ["home", "nope"]) == Lookup(home, ["nope"]);

    assert Lookup(User, ["resume.pdf", "x"]) == Lookup(pdf, ["x"]);
    assert Lookup(home, ["user", "resume.pdf", "x"]) == Lookup(User, ["resume.pdf", "x"]);
    assert Lookup(Root, ["home", "user", "resume.pdf", "x"]) == Lookup(home, ["user", "resume.pdf", "x"]);

    assert Lookup(home, ["user"]) == Lookup(User, []);
    assert Lookup(Root, ["home", "user"]) == Lookup(home, ["user"]);
    assert Lookup(Root, ["home"]) == Lookup(home, []);

    assert Lookup(User, ["resume.pdf"]) == Lookup(pdf, []);
    assert Lookup(home, ["user", "resume.pdf"]) == Lookup(User, ["resume.pdf"]);
    assert Lookup(Root, ["home", "user", "resume.pdf"]) == Lookup(home, ["user", "resume.pdf"]);
  }
}

=== FILE: grub.dfy ===
/**
 * The bootloader menu: three boot options in a row, a selection moved by the
 * arrow keys with wrap-around, set directly by clicking an option, and
 * emitted by Enter or the boot button.
 */
module Grub {
  import opened Wrappers
  import opened JsNum

  datatype BootOption = BootOption(caption: string, id: string, desc: string)

  const Options: seq<BootOption> := [
    BootOption("\U{25B8} NEXUS OS", "desktop", "Full Desktop Experience"),
    BootOption("\U{25B8} CYBER WORLD", "cyberworld", "Explore Projects in 3D"),
    BootOption("\U{25B8} RESUME", "resume", "View Resume")
  ]

  /** The ids the menu can emit. */
  const BootIds: set<string> := {"desktop", "cyberworld", "resume"}

  /** A selection is a position in the option list. */
  predicate ValidSelection(selected: int)
  {
    0 <= selected < |Options|
  }

  /** ArrowLeft: `(prev - 1 + options.length) % options.length`. */
  function Left(selected: int): (r: int)
    requires ValidSelection(selected)
    ensures ValidSelection(r)
    ensures r == if selected == 0 then |Options| - 1 else selected - 1
  {
    JsRem(selected - 1 + |Options|, |Options|)
  }

  /** ArrowRight: `(prev + 1) % options.length`. */
  function Right(selected: int): (r: int)
    requires ValidSelection(selected)
    ensures ValidSelection(r)
    ensures r == if selected == |Options| - 1 then 0 else selected + 1
  {
    JsRem(selected + 1, |Options|)
  }

  /** The effect of a key press: the new selection and the id it boots, if any. */
  datatype Step = Step(selected: int, boot: Option<string>)

  function HandleKey(selected: int, key: string): (r: Step)
    requires ValidSelection(selected)
    ensures ValidSelection(r.selected)
    ensures r.boot.Some? <==> key == "Enter"
    ensures r.boot.Some? ==> r.boot.value in BootIds && r.selected == selected
    ensures key !in {"ArrowLeft", "ArrowRight"} ==> r.selected == selected
    ensures key == "Enter" ==> r.boot == Some(Options[selected].id)
    ensures key == "ArrowLeft" ==> r == Step(Left(selected), None)
    ensures key == "ArrowRight" ==> r == Step(Right(selected), None)
  {
    if key == "ArrowLeft" then Step(Left(selected), None)
    else if key == "ArrowRight" then Step(Right(selected), None)
    else if key == "Enter" then Step(selected, Some(Select(selected)))
    else Step(selected, None)
  }

  /** Enter and the boot button both emit the selected option's id. */
  function Select(selected: int): (r: string)
    requires ValidSelection(selected)
    ensures r in BootIds
    ensures r == Options[selected].id
  {
    Options[selected].id
  }

  /** Clicking option `i` selects it and boots nothing. */
  function Click(i: int): (r: Step)
    requires ValidSelection(i)
    ensures r.selected == i && r.boot.None?
  {
    Step(i, None)
  }

  /** Left and Right undo each other. */
  lemma LeftRightInverse(selected: int)
    requires ValidSelection(selected)
    ensures Right(Left(selected)) == selected
    ensures Left(Right(selected)) == selected
  {
  }

  /** At the key handler, ArrowRight after ArrowLeft (and the reverse) restores the selection and boots nothing. */
  lemma ArrowKeysInverse(selected: int)
    requires ValidSelection(selected)
    ensures HandleKey(HandleKey(selected, "ArrowLeft").selected, "ArrowRight") == Step(selected, None)
    ensures HandleKey(HandleKey(selected, "ArrowRight").selected, "ArrowLeft") == Step(selected, None)
  {
    LeftRightInverse(selected);
  }

  /** Three presses in one direction come back to the start. */
  lemma RightCycles(selected: int)
    requires ValidSelection(selected)
    ensures Right(Right(Right(selected))) == selected
    ensures Left(Left(Left(selected))) == selected
  {
  }

  /** Every option can be booted: the three positions emit the three ids. */
  lemma EveryIdBootable()
    ensures forall id :: id in BootIds ==> exists i :: ValidSelection(i) && Select(i) == id
  {
    assert Select(0) == "desktop" && Select(1) == "cyberworld" && Select(2) == "resume";
  }
}

=== FILE: holoterminal.dfy ===
/**
 * The holographic shell: a command line over a fixed set of commands, with a
 * working directory that `cd` may extend by `projects` or `documents` and
 * shorten by `..`. The HTML of each printed line is abstracted to a `Line`
 * value that says which line it is.
 */
module HoloTerminal {
  import opened Wrappers
  import opened Text

  /** The multi-line blocks the shell prints, and how many lines each has. */
  datatype Block = Banner | Help | Whoami | Matrix | Neofetch

  function BlockSize(b: Block): nat
  {
    match b
    case Banner => 6
    case Help => 8
    case Whoami => 5
    case Matrix => 2
    case Neofetch => 7
  }

  datatype Line =
    | BlockLine(block: Block, index: nat)     // line `index` of a fixed block
    | Prompt(cwd: seq<string>, cmd: string)   // the echo of an entered command
    | LaunchingSkills
    | Listing
    | MissingOperand
    | NoSuchDirectory(target: string)
    | NotFound(command: string)

  /** All lines of a block, in order. */
  function BlockLines(b: Block): (r: seq<Line>)
    ensures |r| == BlockSize(b)
    ensures forall k :: 0 <= k < |r| ==> r[k] == BlockLine(b, k)
  {
    seq(BlockSize(b), k requires 0 <= k => BlockLine(b, k))
  }

  datatype Shell = Shell(history: seq<Line>, input: string, cwd: seq<string>)

  const Initial := Shell(BlockLines(Banner), "", ["home", "user"])

  /** The directories `cd` accepts, as listed by `ls`. */
  const ValidDirs: seq<string> := ["projects", "documents"]

  /** The outcome of one command: the new shell and the app it asks to open, if any. */
  datatype Outcome = Outcome(shell: Shell, launch: Option<string>)

  /** `parts[1]`, undefined when there is no second token. */
  function Operand(parts: seq<string>): (r: Option<string>)
    ensures r.Some? <==> |parts| >= 2
  {
    if |parts| >= 2 then Some(parts[1]) else None
  }

  /** The lines `cd` prints and the directory it moves to. */
  function ChangeDir(cwd: seq<string>, target: Option<string>): (r: (seq<Line>, seq<string>))
    ensures |r.0| <= 1
    ensures target.None? || target == Some("") ==> r == ([MissingOperand], cwd)
    ensures target == Some("..") ==> r.0 == [] && r.1 == if |cwd| > 1 then cwd[..|cwd| - 1] else cwd
    ensures r.1 != cwd ==> target.Some? && (target.value == ".." || target.value in ValidDirs)
    ensures target.Some? && target.value in ValidDirs ==> r == ([], cwd + [target.value])
    ensures target.Some? && target.value !in {"", ".."} && target.value !in ValidDirs ==>
      r == ([NoSuchDirectory(target.value)], cwd)
  {
    if target.None? || target.value == "" then ([MissingOperand], cwd)
    else if target.value == ".." then ([], if |cwd| > 1 then cwd[..|cwd| - 1] else cwd)
    else if target.value in ValidDirs then ([], cwd + [target.value])
    else ([NoSuchDirectory(target.value)], cwd)
  }

  /** The command names the shell knows. */
  const Known: set<string> := {"help", "clear", "whoami", "skills", "matrix", "neofetch", "ls", "cd"}

  /**
   * The lines a command other than `clear` prints after its echo, the new
   * working directory and the app it opens.
   */
  function Respond(command: string, parts: seq<string>, cwd: seq<string>): (r: (seq<Line>, seq<string>, Option<string>))
    requires command != "clear"
    ensures r.2.Some? <==> command == "skills"
    ensures r.2.Some? ==> r.2.value == "skills"
    ensures r.1 != cwd ==> command == "cd"
    ensures command !in Known ==> r == ([NotFound(command)], cwd, None)
  {
    match command
    case "help" => (BlockLines(Help), cwd, None)
    case "whoami" => (BlockLines(Whoami), cwd, None)
    case "skills" => ([LaunchingSkills], cwd, Some("skills"))
    case "matrix" => (BlockLines(Matrix), cwd, None)
    case "neofetch" => (BlockLines(Neofetch), cwd, None)
    case "ls" => ([Listing], cwd, None)
    case "cd" =>
      var (lines, dir) := ChangeDir(cwd, Operand(parts));
      (lines, dir, None)
    case _ => ([NotFound(command)], cwd, None)
  }

  /** The command word of an input line: the lower-cased first space-separated token of the trimmed line. */
  function Command(cmd: string): string
  {
    Lower(Split(Trim(cmd))[0])
  }

  /**
   * `handleCmd(cmd)`: `clear` empties the screen and the input; every other
   * command appends the echo of the raw input, then its output.
   */
  function HandleCmd(s: Shell, cmd: string): (r: Outcome)
    ensures Command(cmd) == "clear" ==> r == Outcome(Shell([], "", s.cwd), None)
    ensures Command(cmd) != "clear" ==>
      && |r.shell.history| > |s.history|
      && r.shell.history[..|s.history| + 1] == s.history + [Prompt(s.cwd, cmd)]
      && r.shell.input == ""
    ensures r.shell.cwd != s.cwd ==> Command(cmd) == "cd"
    ensures r.launch.Some? ==> r.launch == Some("skills")
  {
    Dispatch(s, cmd, Command(cmd), Split(Trim(cmd)))
  }

  /** `handleCmd` once the line is parsed into its command word and its tokens. */
  function Dispatch(s: Shell, cmd: string, command: string, parts: seq<string>): (r: Outcome)
    ensures command == "clear" ==> r == Outcome(Shell([], "", s.cwd), None)
    ensures command != "clear" ==>
      var (lines, dir, launch) := Respond(command, parts, s.cwd);
      r == Outcome(Shell(s.history + [Prompt(s.cwd, cmd)] + lines, "", dir), launch)
    ensures command != "clear" ==>
      && |r.shell.history| > |s.history|
      && r.shell.history[..|s.history| + 1] == s.history + [Prompt(s.cwd, cmd)]
      && r.shell.input == ""
    ensures r.shell.cwd != s.cwd ==> command == "cd"
    ensures r.launch.Some? ==> r.launch == Some("skills")
  {
    if command == "clear" then Outcome(Shell([], "", s.cwd), None)
    else
      var echoed := s.history + [Prompt(s.cwd, cmd)];
      var (lines, dir, launch) := Respond(command, parts, s.cwd);
      assert (echoed + lines)[..|s.history| + 1] == echoed;
      Outcome(Shell(echoed + lines, "", dir), launch)
  }

  /** `cd` with no operand prints "missing operand" after the echo and stays put. */
  lemma CdWithoutOperand(s: Shell, cmd: string)
    requires Trim(cmd) == "cd"
    ensures HandleCmd(s, cmd).shell == Shell(s.history + [Prompt(s.cwd, cmd), MissingOperand], "", s.cwd)
  {
    LoneCd(cmd);
    assert HandleCmd(s, cmd) == Dispatch(s, cmd, "cd", ["cd"]);
    CdAlone(s, cmd);
  }

  lemma CdAlone(s: Shell, cmd: string)
    ensures Dispatch(s, cmd, "cd", ["cd"]).shell == Shell(s.history + [Prompt(s.cwd, cmd), MissingOperand], "", s.cwd)
  {
    assert Respond("cd", ["cd"], s.cwd) == ([MissingOperand], s.cwd, None);
  }

  /** An unknown command adds exactly its echo and one "command not found" line. */
  lemma UnknownCommandReply(s: Shell, cmd: string)
    requires Command(cmd) !in Known
    ensures HandleCmd(s, cmd).shell == Shell(s.history + [Prompt(s.cwd, cmd), NotFound(Command(cmd))], "", s.cwd)
  {
    DispatchUnknown(s, cmd, Command(cmd), Split(Trim(cmd)));
  }

  lemma DispatchUnknown(s: Shell, cmd: string, command: string, parts: seq<string>)
    requires command !in Known
    ensures Dispatch(s, cmd, command, parts).shell == Shell(s.history + [Prompt(s.cwd, cmd), NotFound(command)], "", s.cwd)
  {
  }

  /** The working directory always starts at `/home/user`: `cd` never leaves it. */
  ghost predicate UnderHome(cwd: seq<string>)
  {
    |cwd| >= 1 && cwd[0] == "home"
  }

  lemma HandleCmdKeepsHome(s: Shell, cmd: string)
    requires UnderHome(s.cwd)
    ensures UnderHome(HandleCmd(s, cmd).shell.cwd)
  {
    DispatchKeepsHome(s, cmd, Command(cmd), Split(Trim(cmd)));
  }

  lemma DispatchKeepsHome(s: Shell, cmd: string, command: string, parts: seq<string>)
    requires UnderHome(s.cwd)
    ensures UnderHome(Dispatch(s, cmd, command, parts).shell.cwd)
  {
    if command == "cd" {
      CdDepth(s.cwd, Operand(parts));
    }
  }

  /**
   * `cd` into a valid directory then `cd ..` returns to where it started;
   * `cd ..` at a single segment stays put.
   */
  lemma CdThenBack(cwd: seq<string>, dir: string)
    requires dir in ValidDirs && |cwd| >= 1
    ensures ChangeDir(ChangeDir(cwd, Some(dir)).1, Some("..")).1 == cwd
  {
    assert (cwd + [dir])[..|cwd|] == cwd;
  }

  lemma CdUpAtTop(cwd: seq<string>)
    requires |cwd| <= 1
    ensures ChangeDir(cwd, Some("..")) == ([], cwd)
  {
  }

  /** One `cd` changes the depth by at most one and never empties the path. */
  lemma CdDepth(cwd: seq<string>, target: Option<string>)
    ensures |cwd| - 1 <= |ChangeDir(cwd, target).1| <= |cwd| + 1
    ensures |cwd| >= 1 ==> |ChangeDir(cwd, target).1| >= 1
  {
  }
}

=== FILE: jsnum.dfy ===
/** JavaScript number operations whose semantics differ from Dafny's. */
module JsNum {
  /** JavaScript's `%`, which truncates toward zero (so `-1 % 4 == -1`). */
  function JsRem(a: int, b: int): (r: int)
    requires b > 0
    ensures a >= 0 ==> r == a % b
    ensures a < 0 ==> -b < r <= 0
    ensures (a - r) % b == 0
  {
    if a >= 0 then
      assert a - a % b == b * (a / b);
      ModUnique(b * (a / b), b, a / b, 0);
      a % b
    else
      var q := (-a) / b;
      assert a - -((-a) % b) == b * -q;
      ModUnique(b * -q, b, -q, 0);
      -((-a) % b)
  }

  /** Euclidean division is determined by its remainder's range. */
  lemma ModUnique(x: int, b: int, q: int, m: int)
    requires b > 0 && 0 <= m < b && x == b * q + m
    ensures x % b == m && x / b == q
  {
    var d := q - x / b;
    assert b * d == x % b - m;
    MulAwayFromZero(b, d);
  }

  /** A non-zero multiple of a positive number is at least that number away from zero. */
  lemma MulAwayFromZero(b: int, d: int)
    requires b > 0
    ensures d >= 1 ==> b * d >= b
    ensures d <= -1 ==> b * d <= -b
  {
  }

  /** JavaScript's `Math.trunc(a / b)`: the quotient rounded toward zero. */
  function JsQuot(a: int, b: int): (q: int)
    requires b > 0
    ensures a >= 0 ==> q == a / b
    ensures a < 0 ==> q <= 0
  {
    if a >= 0 then a / b else -((-a) / b)
  }

  /**
   * The truncated quotient and remainder split the dividend, and the
   * remainder carries the dividend's sign: `-1 % 4 == -1`, not 3.
   */
  lemma QuotRem(a: int, b: int)
    requires b > 0
    ensures a == b * JsQuot(a, b) + JsRem(a, b)
    ensures a < 0 && a % b != 0 ==> JsRem(a, b) == a % b - b
  {
    if a < 0 {
      var q, m := (-a) / b, (-a) % b;
      assert a == b * -q + -m;
      if m != 0 {
        assert a == b * (-q - 1) + (b - m);
        ModUnique(a, b, -q - 1, b - m);
      } else {
        ModUnique(a, b, -q, 0);
      }
    }
  }

}

=== FILE: palette.dfy ===
/**
 * The command palette: the list of launchable applications, the fuzzy
 * matcher, the ranking of the list for a search string (recently launched
 * applications first when the search is blank; title hits first otherwise)
 * and the keyboard selection.
 */
module Palette {
  import opened Wrappers
  import opened Seqs
  import opened Text
  import opened StableSort

  /** A palette entry (the icon is presentation only). */
  datatype App = App(id: string, title: string, description: string, keywords: seq<string>)

  const AppsList: seq<App> := [
    App("about", "About Me", "Learn about my background and skills", ["about", "me", "bio", "profile"]),
    App("projects", "Projects", "View my portfolio of work", ["projects", "work", "portfolio", "code"]),
    App("contact", "Contact", "Get in touch with me", ["contact", "email", "message", "reach"]),
    App("terminal3d", "Holo Terminal", "Interactive 3D terminal experience", ["terminal", "console", "command", "holo", "3d"]),
    App("terminal", "Terminal", "Classic terminal interface", ["terminal", "console", "command", "shell"]),
    App("explorer", "File Explorer", "Browse virtual filesystem", ["files", "folder", "explorer", "browse"]),
    App("skills", "Skills Orbit", "3D visualization of skills", ["skills", "tech", "orbit", "3d"]),
    App("resume", "Resume", "View my professional resume", ["resume", "cv", "document"]),
    App("ecoscan", "EcoScan", "Sustainability checker app", ["eco", "scan", "sustainability", "green"]),
    App("dashboard", "Dashboard", "Productivity dashboard", ["dashboard", "todo", "task", "productivity"]),
    App("snake", "Snake Game", "Classic snake arcade game", ["snake", "game", "play", "arcade"]),
    App("puzzle", "Puzzle", "Sliding tile puzzle game", ["puzzle", "game", "tiles", "sliding"])
  ]

  // ----- Fuzzy matching -----

  /**
   * The matcher's loop: walks `t` from position `i`, advancing in `q` (from
   * `qi`) on each equal character, and returns how far it got in `q`.
   */
  function Scan(t: string, q: string, i: nat, qi: nat): (r: nat)
    requires i <= |t| && qi <= |q|
    ensures qi <= r <= |q|
    decreases |t| - i
  {
    if i < |t| && qi < |q| then
      if t[i] == q[qi] then Scan(t, q, i + 1, qi + 1) else Scan(t, q, i + 1, qi)
    else qi
  }

  /** Matching greedily is never worse: the first character can be matched at the head. */
  lemma {:induction false} SubseqDropHead<T>(ys: seq<T>, xs: seq<T>)
    requires ys != [] && IsSubseq(ys, xs)
    ensures IsSubseq(ys[1..], xs)
  {
    if xs != [] {
      if IsSubseq(ys, xs[1..]) {
        SubseqDropHead(ys, xs[1..]);
        SubseqSkip(ys[1..], xs);
      } else {
        SubseqSkip(ys[1..], xs);
      }
    }
  }

  /** The greedy scan reaches the end of the query exactly when the rest of the query is a subsequence of the rest of the text. */
  lemma {:induction false} ScanIsSubseq(t: string, q: string, i: nat, qi: nat)
    requires i <= |t| && qi <= |q|
    ensures Scan(t, q, i, qi) == |q| <==> IsSubseq(q[qi..], t[i..])
    decreases |t| - i
  {
    if qi == |q| {
    } else if i == |t| {
    } else {
      ScanIsSubseq(t, q, i + 1, if t[i] == q[qi] then qi + 1 else qi);
      assert t[i..][1..] == t[i + 1..];
      assert q[qi..][1..] == q[qi + 1..];
      if t[i] == q[qi] && IsSubseq(q[qi..], t[i + 1..]) {
        SubseqDropHead(q[qi..], t[i + 1..]);
      }
    }
  }

  /** A subsequence of a suffix is a subsequence of the whole. */
  lemma {:induction false} SubseqOfSuffix<T>(ys: seq<T>, xs: seq<T>, i: nat)
    requires i <= |xs| && IsSubseq(ys, xs[i..])
    ensures IsSubseq(ys, xs)
    decreases i
  {
    if i > 0 {
      assert xs[1..][i - 1..] == xs[i..];
      SubseqOfSuffix(ys, xs[1..], i - 1);
      SubseqSkip(ys, xs);
    }
  }

  /** A prefix is a subsequence. */
  lemma {:induction false} PrefixIsSubseq<T>(ys: seq<T>, xs: seq<T>)
    requires ys <= xs
    ensures IsSubseq(ys, xs)
  {
    if ys != [] {
      assert ys[1..] <= xs[1..];
      PrefixIsSubseq(ys[1..], xs[1..]);
    }
  }

  /** A substring is a subsequence, so the `includes` shortcut never answers differently. */
  lemma ContainsIsSubseq(t: string, q: string)
    requires Contains(t, q)
    ensures IsSubseq(q, t)
  {
    var i :| 0 <= i <= |t| && q <= t[i..];
    PrefixIsSubseq(q, t[i..]);
    SubseqOfSuffix(q, t, i);
  }

  /**
   * `fuzzyMatch(text, query)`: case-insensitively, the query's characters
   * occur in the text in order.
   */
  function FuzzyMatch(text: string, query: string): (r: bool)
    ensures r <==> IsSubseq(Lower(query), Lower(text))
  {
    var t := Lower(text);
    var q := Lower(query);
    ScanIsSubseq(t, q, 0, 0);
    assert t[0..] == t && q[0..] == q;
    if Contains(t, q) then
      ContainsIsSubseq(t, q);
      true
    else Scan(t, q, 0, 0) == |q|
  }

  /** The substring shortcut is only a shortcut: the scan alone gives the same answer. */
  lemma ShortcutIsRedundant(text: string, query: string)
    ensures FuzzyMatch(text, query) <==> Scan(Lower(text), Lower(query), 0, 0) == |Lower(query)|
  {
    ScanIsSubseq(Lower(text), Lower(query), 0, 0);
    assert Lower(text)[0..] == Lower(text) && Lower(query)[0..] == Lower(query);
  }

  /** The empty query matches every text. */
  lemma EmptyQueryMatches(text: string)
    ensures FuzzyMatch(text, "")
  {
  }

  /** A query longer than the text never matches. */
  lemma {:induction false} LongQueryFails(text: string, query: string)
    requires |query| > |text|
    ensures !FuzzyMatch(text, query)
  {
    if IsSubseq(Lower(query), Lower(text)) {
      SubseqNotLonger(Lower(query), Lower(text));
    }
  }

  lemma {:induction false} SubseqNotLonger<T>(ys: seq<T>, xs: seq<T>)
    requires IsSubseq(ys, xs)
    ensures |ys| <= |xs|
  {
    if ys != [] {
      if IsSubseq(ys, xs[1..]) {
        SubseqNotLonger(ys, xs[1..]);
      } else {
        SubseqNotLonger(ys[1..], xs[1..]);
      }
    }
  }

  // ----- Filtering and ranking -----

  /** `keywords.some(k => fuzzyMatch(k, search))`. */
  function SomeKeyword(keywords: seq<string>, search: string): (r: bool)
    ensures r <==> exists k :: 0 <= k < |keywords| && FuzzyMatch(keywords[k], search)
  {
    if keywords == [] then false
    else FuzzyMatch(keywords[0], search) || SomeKeyword(keywords[1..], search)
  }

  /** The filter test for a non-blank search. */
  predicate Matches(a: App, search: string)
  {
    FuzzyMatch(a.title, search) || FuzzyMatch(a.description, search) || SomeKeyword(a.keywords, search)
  }

  /** The sort test: the title contains the search, case-insensitively. */
  predicate TitleHit(a: App, search: string)
  {
    Contains(Lower(a.title), Lower(search))
  }

  function Matching(apps: seq<App>, search: string): (r: seq<App>)
    ensures forall i :: 0 <= i < |r| ==> r[i] in apps && Matches(r[i], search)
    ensures forall i :: 0 <= i < |apps| && Matches(apps[i], search) ==> apps[i] in r
  {
    if apps == [] then []
    else if Matches(apps[0], search) then [apps[0]] + Matching(apps[1..], search)
    else Matching(apps[1..], search)
  }

  /** The title hits of a list, in order. */
  function Hits(apps: seq<App>, search: string): (r: seq<App>)
    ensures forall i :: 0 <= i < |r| ==> r[i] in apps && TitleHit(r[i], search)
  {
    if apps == [] then []
    else if TitleHit(apps[0], search) then [apps[0]] + Hits(apps[1..], search)
    else Hits(apps[1..], search)
  }

  /** The entries of a list that are not title hits, in order. */
  function Misses(apps: seq<App>, search: string): (r: seq<App>)
    ensures forall i :: 0 <= i < |r| ==> r[i] in apps && !TitleHit(r[i], search)
  {
    if apps == [] then []
    else if !TitleHit(apps[0], search) then [apps[0]] + Misses(apps[1..], search)
    else Misses(apps[1..], search)
  }

  lemma {:induction false} SortKeyGroups(key: App -> int, search: string, xs: seq<App>)
    requires forall a :: key(a) == if TitleHit(a, search) then 0 else 1
    ensures WithKey(key, 0, xs) == Hits(xs, search)
    ensures WithKey(key, 1, xs) == Misses(xs, search)
  {
    if xs != [] {
      SortKeyGroups(key, search, xs[1..]);
    }
  }

  lemma {:induction false} HitsAppend(xs: seq<App>, ys: seq<App>, search: string)
    ensures Hits(xs + ys, search) == Hits(xs, search) + Hits(ys, search)
  {
    if xs == [] {
      assert xs + ys == ys;
    } else {
      assert (xs + ys)[1..] == xs[1..] + ys;
      HitsAppend(xs[1..], ys, search);
    }
  }

  lemma {:induction false} MissesAppend(xs: seq<App>, ys: seq<App>, search: string)
    ensures Misses(xs + ys, search) == Misses(xs, search) + Misses(ys, search)
  {
    if xs == [] {
      assert xs + ys == ys;
    } else {
      assert (xs + ys)[1..] == xs[1..] + ys;
      MissesAppend(xs[1..], ys, search);
    }
  }

  /** Filtering a group by its own test changes nothing. */
  lemma {:induction false} GroupsAreStable(xs: seq<App>, search: string)
    ensures Hits(Hits(xs, search), search) == Hits(xs, search)
    ensures Misses(Hits(xs, search), search) == []
    ensures Hits(Misses(xs, search), search) == []
    ensures Misses(Misses(xs, search), search) == Misses(xs, search)
  {
    if xs != [] {
      GroupsAreStable(xs[1..], search);
    }
  }

  /** Each group of the matching entries keeps the palette's list order. */
  lemma {:induction false} GroupsOfMatchingInOrder(apps: seq<App>, search: string)
    ensures IsSubseq(Hits(Matching(apps, search), search), apps)
    ensures IsSubseq(Misses(Matching(apps, search), search), apps)
  {
    if apps != [] {
      GroupsOfMatchingInOrder(apps[1..], search);
      var h := Hits(Matching(apps[1..], search), search);
      var m := Misses(Matching(apps[1..], search), search);
      SubseqSkip(h, apps);
      SubseqSkip(m, apps);
    }
  }

  lemma {:induction false} GroupsPartition(xs: seq<App>, search: string)
    ensures multiset(Hits(xs, search) + Misses(xs, search)) == multiset(xs)
  {
    if xs != [] {
      GroupsPartition(xs[1..], search);
      ConsBetweenGroups(xs[0], Hits(xs[1..], search), Misses(xs[1..], search), xs);
    }
  }

  /**
   * The list for a non-blank search: the matching entries, title hits first,
   * each group in list order (the sort is stable).
   */
  function Ranked(apps: seq<App>, search: string): (r: seq<App>)
    ensures forall a :: a in r <==> a in apps && Matches(a, search)
    ensures multiset(r) == multiset(Matching(apps, search))
    ensures forall i, j :: 0 <= i < j < |r| && TitleHit(r[j], search) ==> TitleHit(r[i], search)
    ensures IsSubseq(Hits(r, search), apps) && IsSubseq(Misses(r, search), apps)
  {
    var key := (a: App) => if TitleHit(a, search) then 0 else 1;
    var ms := Matching(apps, search);
    RankedGroups(key, ms, search);
    GroupsOfMatchingInOrder(apps, search);
    Sort(key, ms)
  }

  lemma RankedGroups(key: App -> int, ms: seq<App>, search: string)
    requires forall a :: key(a) == if TitleHit(a, search) then 0 else 1
    ensures Sort(key, ms) == Hits(ms, search) + Misses(ms, search)
    ensures Hits(Sort(key, ms), search) == Hits(ms, search)
    ensures Misses(Sort(key, ms), search) == Misses(ms, search)
    ensures multiset(Sort(key, ms)) == multiset(ms)
    ensures forall a :: a in Sort(key, ms) <==> a in ms
  {
    SortCorrect(key, ms);
    SortTwoKeys(key, ms);
    SortKeyGroups(key, search, ms);
    var h := Hits(ms, search);
    var m := Misses(ms, search);
    HitsAppend(h, m, search);
    MissesAppend(h, m, search);
    GroupsAreStable(ms, search);
    var r := Sort(key, ms);
    assert forall a :: a in r <==> a in multiset(ms);
  }

  /** The applications of a list whose id is in the history, in list order. */
  function RecentOf(apps: seq<App>, history: seq<string>): (r: seq<App>)
    ensures forall i :: 0 <= i < |r| ==> r[i] in apps && r[i].id in history
    ensures forall i :: 0 <= i < |apps| && apps[i].id in history ==> apps[i] in r
  {
    if apps == [] then []
    else if apps[0].id in history then [apps[0]] + RecentOf(apps[1..], history)
    else RecentOf(apps[1..], history)
  }

  /** The applications of a list whose id is not in the history, in list order. */
  function OthersOf(apps: seq<App>, history: seq<string>): (r: seq<App>)
    ensures forall i :: 0 <= i < |r| ==> r[i] in apps && r[i].id !in history
    ensures forall i :: 0 <= i < |apps| && apps[i].id !in history ==> apps[i] in r
  {
    if apps == [] then []
    else if apps[0].id !in history then [apps[0]] + OthersOf(apps[1..], history)
    else OthersOf(apps[1..], history)
  }

  lemma {:induction false} RecentOthersPartition(apps: seq<App>, history: seq<string>)
    ensures multiset(RecentOf(apps, history)) + multiset(OthersOf(apps, history)) == multiset(apps)
    ensures IsSubseq(OthersOf(apps, history), apps)
  {
    if apps != [] {
      RecentOthersPartition(apps[1..], history);
      var recent := RecentOf(apps[1..], history);
      var others := OthersOf(apps[1..], history);
      ConsBetweenGroups(apps[0], recent, others, apps);
      if apps[0].id in history {
        SubseqSkip(others, apps);
      }
    }
  }

  /**
   * The list for a blank search: every application once; first those in the
   * history, by position in the history, then the rest in list order.
   */
  function BlankList(apps: seq<App>, history: seq<string>): (r: seq<App>)
    ensures multiset(r) == multiset(apps)
    ensures var n := |RecentOf(apps, history)|;
      && n <= |r|
      && (forall i :: 0 <= i < n ==> r[i].id in history)
      && (forall i :: n <= i < |r| ==> r[i].id !in history)
      && (forall i, j :: 0 <= i < j < n ==> IndexOf(history, r[i].id) <= IndexOf(history, r[j].id))
      && IsSubseq(r[n..], apps)
  {
    var key := (a: App) => IndexOf(history, a.id);
    var recent := RecentOf(apps, history);
    RecentByHistory(key, recent, history);
    RecentOthersPartition(apps, history);
    Sort(key, recent) + OthersOf(apps, history)
  }

  lemma RecentByHistory(key: App -> int, recent: seq<App>, history: seq<string>)
    requires forall a :: key(a) == IndexOf(history, a.id)
    requires forall i :: 0 <= i < |recent| ==> recent[i].id in history
    ensures multiset(Sort(key, recent)) == multiset(recent)
    ensures |Sort(key, recent)| == |recent|
    ensures forall i :: 0 <= i < |recent| ==> Sort(key, recent)[i].id in history
    ensures forall i, j :: 0 <= i < j < |recent| ==>
      IndexOf(history, Sort(key, recent)[i].id) <= IndexOf(history, Sort(key, recent)[j].id)
  {
    SortCorrect(key, recent);
    var sorted := Sort(key, recent);
    forall i | 0 <= i < |sorted| ensures sorted[i].id in history {
      assert sorted[i] in multiset(recent);
    }
  }

  /**
   * `filteredApps`: the blank-search list when the search is empty after
   * trimming, the ranked matches otherwise.
   */
  function Filtered(history: seq<string>, search: string): (r: seq<App>)
    ensures IsBlank(search) ==> r == BlankList(AppsList, history)
    ensures !IsBlank(search) ==> r == Ranked(AppsList, search)
  {
    TrimEmptyIffBlank(search);
    if Trim(search) == "" then BlankList(AppsList, history) else Ranked(AppsList, search)
  }

  /** A blank search lists every application exactly once, whatever the history. */
  lemma BlankListsEverything(apps: seq<App>, history: seq<string>)
    ensures |BlankList(apps, history)| == |apps|
    ensures forall a :: a in apps ==> a in BlankList(apps, history)
  {
    var r := BlankList(apps, history);
    assert |multiset(r)| == |multiset(apps)|;
    assert forall a :: a in apps ==> a in multiset(r);
  }

  // ----- Keyboard selection -----

  /** ArrowDown: one further, but not past the last entry (-1 for an empty list). */
  function Down(i: int, len: int): (r: int)
    ensures r <= len - 1 && r <= i + 1
    ensures r == i + 1 || r == len - 1
  {
    if i + 1 < len - 1 then i + 1 else len - 1
  }

  /** ArrowUp: one back, but not before the first entry. */
  function Up(i: int): (r: int)
    ensures r >= 0 && r >= i - 1
    ensures r == i - 1 || r == 0
  {
    if i - 1 > 0 then i - 1 else 0
  }

  /** Within a non-empty list the selection stays inside the list. */
  lemma SelectionStaysInRange(i: int, len: int)
    requires 0 <= i < len
    ensures 0 <= Down(i, len) < len && 0 <= Up(i) < len
  {
  }

  /** Down then Up returns to the entry, unless Down was stopped by the end. */
  lemma UpUndoesDown(i: int, len: int)
    requires 0 <= i < len - 1
    ensures Up(Down(i, len)) == i
  {
  }

  /** What a key press in the open palette does. */
  datatype Action = Select(index: int) | LaunchApp(id: string) | Dismiss | NoAction

  /** The palette's key handler for the list it shows and the current selection. */
  function HandleKey(key: string, list: seq<App>, selected: int): (r: Action)
    ensures r.LaunchApp? ==> key == "Enter" && 0 <= selected < |list| && r.id == list[selected].id
    ensures key == "Enter" && 0 <= selected < |list| ==> r == LaunchApp(list[selected].id)
    ensures r.Select? ==> key in {"ArrowDown", "ArrowUp"}
    ensures key == "ArrowDown" ==> r == Select(Down(selected, |list|))
    ensures key == "ArrowUp" ==> r == Select(Up(selected))
    ensures r.Dismiss? <==> key == "Escape"
  {
    if key == "ArrowDown" then Select(Down(selected, |list|))
    else if key == "ArrowUp" then Select(Up(selected))
    else if key == "Enter" && 0 <= selected < |list| then LaunchApp(list[selected].id)
    else if key == "Escape" then Dismiss
    else NoAction
  }

  /** ArrowDown then ArrowUp puts the selection back, unless it was already on the last entry. */
  lemma ArrowsUndo(list: seq<App>, selected: int)
    requires 0 <= selected < |list| - 1
    ensures var down := HandleKey("ArrowDown", list, selected);
      down.Select? && HandleKey("ArrowUp", list, down.index) == Select(selected)
  {
    UpUndoesDown(selected, |list|);
  }
}

=== FILE: projects.dfy ===
/**
 * The projects window: the project list and its filter by a search string
 * (matched case-insensitively as a substring of the name or description) and
 * a technology button (`All`, or one exact entry of the project's tech list).
 */
module Projects {
  import opened Seqs
  import opened Text

  /** A project card's data (icon, colour and links are presentation only). */
  datatype Project = Project(id: int, name: string, description: string, tech: seq<string>, category: string)

  const ProjectsData: seq<Project> := [
    Project(1, "EcoScan",
      "Sustainability checker web app with eco-score visualization and Open Food Facts API integration",
      ["React", "Node.js", "API Integration", "TypeScript"], "web"),
    Project(2, "NexusOS",
      "Custom operating system built from scratch in Rust with VFS, scheduler, and usermode support",
      ["Rust", "Assembly", "OS Dev", "Low-level"], "systems"),
    Project(3, "C Algorithms Library",
      "Custom memory allocators and data structures (Linked Lists, Trees, Hash Tables) built from scratch",
      ["C", "Data Structures", "Algorithms", "Memory Management"], "systems"),
    Project(4, "Toy Compiler",
      "Educational compiler with lexical analyzer, parser, and intermediate code generation",
      ["C++", "Compiler Design", "Parsing", "Code Generation"], "systems"),
    Project(5, "Portfolio OS",
      "Interactive 3D portfolio website simulating an operating system with boot sequence and apps",
      ["React", "Three.js", "Framer Motion", "WebGL"], "web")
  ]

  /** The filter buttons. */
  const TechFilters: seq<string> := ["All", "React", "Rust", "C", "C++", "Node.js", "TypeScript", "WebGL"]

  /** The search test: name or description contains the search, ignoring case. */
  predicate MatchesSearch(p: Project, search: string)
  {
    Contains(Lower(p.name), Lower(search)) || Contains(Lower(p.description), Lower(search))
  }

  /** The technology test: `All`, or the filter is one of the project's tech entries. */
  predicate MatchesFilter(p: Project, filter: string)
  {
    filter == "All" || filter in p.tech
  }

  /** `filteredProjects`: the projects passing both tests, in list order. */
  function FilterProjects(ps: seq<Project>, search: string, filter: string): (r: seq<Project>)
    ensures forall p :: p in r <==> p in ps && MatchesSearch(p, search) && MatchesFilter(p, filter)
    ensures IsSubseq(r, ps)
  {
    if ps == [] then []
    else
      var rest := FilterProjects(ps[1..], search, filter);
      if MatchesSearch(ps[0], search) && MatchesFilter(ps[0], filter) then
        [ps[0]] + rest
      else
        SubseqSkip(rest, ps);
        rest
  }

  /** The filter the window shows. */
  function Filtered(search: string, filter: string): (r: seq<Project>)
    ensures forall p :: p in r <==> p in ProjectsData && MatchesSearch(p, search) && MatchesFilter(p, filter)
    ensures IsSubseq(r, ProjectsData)
  {
    FilterProjects(ProjectsData, search, filter)
  }

  /** An empty search with `All` shows everything. */
  lemma {:induction false} EmptySearchAllShowsEverything(ps: seq<Project>)
    ensures FilterProjects(ps, "", "All") == ps
  {
    if ps != [] {
      EmptySearchAllShowsEverything(ps[1..]);
      assert Contains(Lower(ps[0].name), Lower("")) by {
        assert Lower("") <= Lower(ps[0].name)[0..];
      }
    }
  }

  /** A technology button narrows the `All` list, keeping its order. */
  lemma {:induction false} FilterNarrowsAll(ps: seq<Project>, search: string, filter: string)
    ensures IsSubseq(FilterProjects(ps, search, filter), FilterProjects(ps, search, "All"))
  {
    if ps != [] {
      FilterNarrowsAll(ps[1..], search, filter);
      var r := FilterProjects(ps[1..], search, filter);
      var all := FilterProjects(ps, search, "All");
      if MatchesSearch(ps[0], search) && !(MatchesFilter(ps[0], filter)) {
        SubseqSkip(r, all);
        assert all[1..] == FilterProjects(ps[1..], search, "All");
      }
    }
  }

  /** The tech test is whole-entry equality: the `C` button does not pick up the C++ project. */
  lemma CDoesNotMatchCpp()
    ensures ProjectsData[3].tech[0] == "C++" && !MatchesFilter(ProjectsData[3], "C")
    ensures MatchesFilter(ProjectsData[2], "C")
  {
  }
}

=== FILE: puzzle.dfy ===
/**
 * The 4x4 sliding puzzle (`AppPuzzle.handleMove` in src/App.jsx). Cells are
 * numbered 0..15 row by row; the value 0 is the blank. Clicking a tile swaps
 * it with the blank when the two cells are orthogonal neighbours.
 */
module Puzzle {
  import opened Seqs
  import opened JsNum

  datatype Game = Game(grid: seq<int>, moves: nat, solved: bool)

  const Solved: seq<int> := [1, 2, 3, 4, 5, 6, 7, 8, 9, 10, 11, 12, 13, 14, 15, 0]

  const Initial: Game := Game(Solved, 0, false)

  /** `Math.floor(i / 4)`; Dafny's division by a positive divisor already floors. */
  function Row(i: int): int { i / 4 }

  function Col(i: int): int { JsRem(i, 4) }

  function Abs(x: int): nat { if x < 0 then -x else x }

  /** The `isAdjacent` test of `handleMove`. */
  predicate Adjacent(i: int, j: int)
  {
    || (Abs(Row(i) - Row(j)) == 1 && Col(i) == Col(j))
    || (Abs(Col(i) - Col(j)) == 1 && Row(i) == Row(j))
  }

  /** Cells 0..14 hold 1..15 (the `isSolved` test). */
  predicate IsSolved(g: seq<int>)
    requires |g| == 16
  {
    forall i :: 0 <= i < 15 ==> g[i] == i + 1
  }

  /** The grid holds each of 0..15 exactly once. */
  predicate IsPermutation(g: seq<int>)
  {
    |g| == 16 && NoDup(g) && forall i :: 0 <= i < |g| ==> 0 <= g[i] <= 15
  }

  /**
   * `handleMove(index)`: the blank is found with `indexOf(0)` (-1 when there
   * is none, which is never adjacent to a cell); an adjacent tile is swapped
   * with it, the move counter goes up, and `solved` is latched once the grid
   * is solved.
   */
  function Move(g: Game, index: int): (r: Game)
    requires |g.grid| == 16 && 0 <= index < 16
    ensures |r.grid| == 16 && multiset(r.grid) == multiset(g.grid)
    ensures r != g ==> var e := IndexOf(g.grid, 0);
      && 0 <= e < 16 && Adjacent(index, e)
      && r.grid[e] == g.grid[index] && r.grid[index] == 0
      && (forall k :: 0 <= k < 16 && k != e && k != index ==> r.grid[k] == g.grid[k])
      && r.moves == g.moves + 1
    ensures r == g <==> !Adjacent(index, IndexOf(g.grid, 0))
    ensures r.solved == (g.solved || (r != g && IsSolved(r.grid)))
  {
    var e := IndexOf(g.grid, 0);
    if Adjacent(index, e) then
      AdjacentIsOtherCell(index, e);
      var ng := g.grid[index := g.grid[e]][e := g.grid[index]];
      Game(ng, g.moves + 1, g.solved || IsSolved(ng))
    else g
  }

  /** A neighbour of a cell on the board is a different cell, never the -1 of a missing blank. */
  lemma AdjacentIsOtherCell(i: int, j: int)
    requires 0 <= i < 16 && -1 <= j && Adjacent(i, j)
    ensures j != i && j >= 0
  {
    assert Row(-1) == -1 && Col(-1) == -1;
  }

  /** Adjacency is symmetric. */
  lemma AdjacentSymmetric(i: int, j: int)
    ensures Adjacent(i, j) == Adjacent(j, i)
  {
  }

  /** A move keeps the grid a permutation of 0..15. */
  lemma MoveKeepsPermutation(g: Game, index: int)
    requires IsPermutation(g.grid) && 0 <= index < 16
    ensures IsPermutation(Move(g, index).grid)
  {
    var r := Move(g, index);
    if r != g {
      var e := IndexOf(g.grid, 0);
      forall i, j | 0 <= i < j < 16 ensures r.grid[i] != r.grid[j] {
        var si := if i == e then index else if i == index then e else i;
        var sj := if j == e then index else if j == index then e else j;
        assert r.grid[i] == g.grid[si] && r.grid[j] == g.grid[sj];
      }
    }
  }

  /** A permutation whose cells 0..14 hold 1..15 has the blank last. */
  lemma SolvedIsGoal(g: seq<int>)
    requires IsPermutation(g) && IsSolved(g)
    ensures g == Solved
  {
    if g[15] != 0 {
      SolvedExcludes(g, g[15]);
    }
    assert forall i :: 0 <= i < 16 ==> g[i] == Solved[i];
  }

  lemma SolvedExcludes(g: seq<int>, v: int)
    requires IsPermutation(g) && IsSolved(g) && 1 <= v <= 15
    ensures g[15] != v
  {
    assert g[v - 1] == v;
  }

  /**
   * Clicking the cell the blank came from undoes a move: the tile returns
   * and the grid is restored.
   */
  lemma MoveUndo(g: Game, index: int)
    requires IsPermutation(g.grid) && 0 <= index < 16
    requires Move(g, index) != g
    ensures var e := IndexOf(g.grid, 0);
      Move(Move(g, index), e).grid == g.grid
  {
    var e := IndexOf(g.grid, 0);
    var r := Move(g, index);
    BlankFollowsMove(g, index);
    AdjacentSymmetric(index, e);
    assert Adjacent(e, IndexOf(r.grid, 0));
    var back := Move(r, e);
    forall k | 0 <= k < 16 ensures back.grid[k] == g.grid[k] {
      if k == e {
        assert g.grid[e] == 0;
      }
    }
  }

  /** After a move the blank sits in the clicked cell. */
  lemma BlankFollowsMove(g: Game, index: int)
    requires IsPermutation(g.grid) && 0 <= index < 16
    requires Move(g, index) != g
    ensures IndexOf(Move(g, index).grid, 0) == index
  {
    var r := Move(g, index);
    MoveKeepsPermutation(g, index);
    var k := IndexOf(r.grid, 0);
    assert 0 in r.grid by { assert r.grid[index] == 0; }
    assert r.grid[k] == 0 == r.grid[index];
  }

  /** A blank-less grid (never produced from the start) accepts no move. */
  lemma NoBlankNoMove(g: Game, index: int)
    requires |g.grid| == 16 && 0 <= index < 16 && 0 !in g.grid
    ensures Move(g, index) == g
  {
  }
}

=== FILE: seqs.dfy ===
/**
 * Generic sequence vocabulary shared by the model: order-preserving filtering
 * (JavaScript's `Array.prototype.filter`), subsequences, duplicate freedom and
 * `indexOf`.
 */
module Seqs {

  /** `xs.filter(p)`: the elements satisfying `p`, in their original order. */
  function Filter<T(==)>(p: T -> bool, xs: seq<T>): (r: seq<T>)
    ensures |r| <= |xs|
    ensures forall i :: 0 <= i < |r| ==> r[i] in xs && p(r[i])
    ensures forall i :: 0 <= i < |xs| && p(xs[i]) ==> xs[i] in r
  {
    if xs == [] then []
    else if p(xs[0]) then [xs[0]] + Filter(p, xs[1..])
    else Filter(p, xs[1..])
  }

  /** `ys` can be obtained from `xs` by deleting elements (order is kept). */
  predicate IsSubseq<T(==)>(ys: seq<T>, xs: seq<T>)
  {
    if ys == [] then true
    else if xs == [] then false
    else IsSubseq(ys, xs[1..]) || (xs[0] == ys[0] && IsSubseq(ys[1..], xs[1..]))
  }

  /** No element occurs twice. */
  predicate NoDup<T(==)>(xs: seq<T>)
  {
    forall i, j :: 0 <= i < j < |xs| ==> xs[i] != xs[j]
  }

  /** `xs.indexOf(x)`: the first position of `x`, or -1. */
  function IndexOf<T(==)>(xs: seq<T>, x: T): (r: int)
    ensures -1 <= r < |xs|
    ensures r == -1 <==> x !in xs
    ensures 0 <= r ==> xs[r] == x && x !in xs[..r]
  {
    if xs == [] then -1
    else if xs[0] == x then 0
    else
      var k := IndexOf(xs[1..], x);
      assert k != -1 ==> xs[1..][..k] == xs[1..k+1];
      if k == -1 then -1 else k + 1
  }

  lemma {:induction false} FilterAppend<T>(p: T -> bool, xs: seq<T>, ys: seq<T>)
    ensures Filter(p, xs + ys) == Filter(p, xs) + Filter(p, ys)
  {
    if xs == [] {
      assert xs + ys == ys;
    } else {
      assert (xs + ys)[1..] == xs[1..] + ys;
      FilterAppend(p, xs[1..], ys);
    }
  }

  /** A filter result is a subsequence of its input. */
  lemma {:induction false} FilterIsSubseq<T>(p: T -> bool, xs: seq<T>)
    ensures IsSubseq(Filter(p, xs), xs)
  {
    if xs != [] {
      FilterIsSubseq(p, xs[1..]);
      if !p(xs[0]) {
        SubseqSkip(Filter(p, xs[1..]), xs);
      }
    }
  }

  /** Dropping the head of the host keeps a subsequence a subsequence. */
  lemma SubseqSkip<T>(ys: seq<T>, xs: seq<T>)
    requires xs != [] && IsSubseq(ys, xs[1..])
    ensures IsSubseq(ys, xs)
  {
  }

  /** Every element of a subsequence occurs in the host. */
  lemma {:induction false} SubseqMembers<T>(ys: seq<T>, xs: seq<T>)
    requires IsSubseq(ys, xs)
    ensures forall i :: 0 <= i < |ys| ==> ys[i] in xs
  {
    if ys != [] {
      if IsSubseq(ys, xs[1..]) {
        SubseqMembers(ys, xs[1..]);
      } else {
        SubseqMembers(ys[1..], xs[1..]);
      }
    }
  }

  /** A prefix of a subsequence is a subsequence. */
  lemma {:induction false} SubseqPrefix<T>(ys: seq<T>, xs: seq<T>, n: nat)
    requires IsSubseq(ys, xs) && n <= |ys|
    ensures IsSubseq(ys[..n], xs)
  {
    if n > 0 {
      if IsSubseq(ys, xs[1..]) {
        SubseqPrefix(ys, xs[1..], n);
      } else {
        SubseqPrefix(ys[1..], xs[1..], n - 1);
        assert ys[..n][1..] == ys[1..][..n-1];
      }
    }
  }

  /** A filter of a duplicate-free sequence is duplicate-free. */
  lemma {:induction false} FilterNoDup<T>(p: T -> bool, xs: seq<T>)
    requires NoDup(xs)
    ensures NoDup(Filter(p, xs))
  {
    if xs != [] {
      assert NoDup(xs[1..]);
      FilterNoDup(p, xs[1..]);
      if p(xs[0]) {
        assert xs[0] !in xs[1..];
      }
    }
  }

  /** The number of distinct elements of a duplicate-free sequence is its length. */
  lemma {:induction false} NoDupCard<T>(xs: seq<T>)
    requires NoDup(xs)
    ensures |set x | x in xs| == |xs|
  {
    if xs != [] {
      assert NoDup(xs[1..]);
      NoDupCard(xs[1..]);
      assert (set x | x in xs) == (set x | x in xs[1..]) + {xs[0]};
      assert xs[0] !in (set x | x in xs[1..]);
    }
  }

  /** `xs.filter(y => y !== x)`. */
  function Remove<T(==)>(xs: seq<T>, x: T): (r: seq<T>)
    ensures |r| <= |xs|
    ensures x !in r
    ensures forall i :: 0 <= i < |r| ==> r[i] in xs
    ensures forall i :: 0 <= i < |xs| && xs[i] != x ==> xs[i] in r
  {
    if xs == [] then []
    else if xs[0] != x then [xs[0]] + Remove(xs[1..], x)
    else Remove(xs[1..], x)
  }

  /** Removing keeps the order of what is left. */
  lemma {:induction false} RemoveIsSubseq<T>(xs: seq<T>, x: T)
    ensures IsSubseq(Remove(xs, x), xs)
  {
    if xs != [] {
      RemoveIsSubseq(xs[1..], x);
      if xs[0] == x {
        SubseqSkip(Remove(xs[1..], x), xs);
      }
    }
  }

  lemma {:induction false} RemoveNoDup<T>(xs: seq<T>, x: T)
    requires NoDup(xs)
    ensures NoDup(Remove(xs, x))
  {
    if xs != [] {
      assert NoDup(xs[1..]);
      RemoveNoDup(xs[1..], x);
      if xs[0] != x {
        assert xs[0] !in xs[1..];
      }
    }
  }

  /** Removing an absent element changes nothing. */
  lemma {:induction false} RemoveAbsent<T>(xs: seq<T>, x: T)
    requires x !in xs
    ensures Remove(xs, x) == xs
  {
    if xs != [] {
      RemoveAbsent(xs[1..], x);
    }
  }

  /**
   * Splitting a list into two groups by a test: putting its head at the front
   * of either group keeps the two groups together a permutation of the list.
   */
  lemma ConsBetweenGroups<T>(x: T, h: seq<T>, m: seq<T>, xs: seq<T>)
    requires xs != [] && xs[0] == x && multiset(h + m) == multiset(xs[1..])
    ensures multiset(([x] + h) + m) == multiset(xs)
    ensures multiset(h + ([x] + m)) == multiset(xs)
  {
    assert xs == [x] + xs[1..];
  }
}

=== FILE: session.dfy ===
/**
 * The desktop session: the window manager, the settings store and the two
 * overlays (command palette, achievements panel) together, driven by the
 * desktop's launch function, its global key handler and the palette's launch.
 */
module Session {
  import opened Wrappers
  import opened Seqs
  import Desktop
  import Settings
  import Palette

  datatype Session = Session(desk: Desktop.Desk, store: Settings.Store, paletteOpen: bool, achievementsOpen: bool)

  /** `launch(key, data)`: counts the open for the achievements, then opens or restores the window. */
  function LaunchApp(s: Session, key: string, data: Option<string>, now: int): (r: Session)
    requires key in Desktop.Apps
    ensures r.desk == Desktop.Launch(s.desk, key, data)
    ensures r.store == Settings.TrackAppOpen(s.store, key, now)
    ensures r.paletteOpen == s.paletteOpen && r.achievementsOpen == s.achievementsOpen
  {
    s.(desk := Desktop.Launch(s.desk, key, data), store := Settings.TrackAppOpen(s.store, key, now))
  }

  /** What the desktop's key handler reads of a key press. */
  datatype KeyPress = KeyPress(key: string, ctrlOrMeta: bool, alt: bool)

  /**
   * The desktop's key handler. Ctrl/Cmd+K opens the palette and counts a
   * shortcut; Escape closes the palette, else the achievements panel, else
   * the active window; Alt+Tab counts a shortcut and cycles focus. The three
   * tests look at different keys, so at most one applies.
   */
  function DesktopKey(s: Session, k: KeyPress, now: int): (r: Session)
    ensures !(k.key == "k" && k.ctrlOrMeta) && k.key != "Escape" && !(k.key == "Tab" && k.alt) ==> r == s
    ensures k.key == "k" && k.ctrlOrMeta ==>
      r == s.(paletteOpen := true, store := Settings.TrackShortcut(s.store, now))
    ensures k.key == "Escape" ==> r.store == s.store
    ensures k.key == "Escape" && s.paletteOpen ==> r == s.(paletteOpen := false)
    ensures k.key == "Escape" && !s.paletteOpen && s.achievementsOpen ==> r == s.(achievementsOpen := false)
    ensures k.key == "Escape" && !s.paletteOpen && !s.achievementsOpen && s.desk.activeId.Some? ==>
      r == s.(desk := Desktop.Close(s.desk, s.desk.activeId.value))
    ensures k.key == "Escape" && !s.paletteOpen && !s.achievementsOpen && s.desk.activeId.None? ==> r == s
    ensures k.key == "Tab" && k.alt ==>
      r == s.(desk := Desktop.AltTab(s.desk), store := Settings.TrackShortcut(s.store, now))
  {
    if k.key == "k" && k.ctrlOrMeta then
      s.(paletteOpen := true, store := Settings.TrackShortcut(s.store, now))
    else if k.key == "Escape" then
      if s.paletteOpen then s.(paletteOpen := false)
      else if s.achievementsOpen then s.(achievementsOpen := false)
      else if s.desk.activeId.Some? then s.(desk := Desktop.Close(s.desk, s.desk.activeId.value))
      else s
    else if k.key == "Tab" && k.alt then
      s.(desk := Desktop.AltTab(s.desk), store := Settings.TrackShortcut(s.store, now))
    else s
  }

  /**
   * The palette's `handleLaunch(appId)`: record the app in the palette
   * history, count a shortcut, launch it, close the palette.
   */
  function PaletteLaunch(s: Session, appId: string, now: int): (r: Session)
    requires appId in Desktop.Apps
    ensures r.store.history == Settings.AddToHistory(s.store.history, appId)
    ensures r.store.progress.shortcutsUsed == s.store.progress.shortcutsUsed + 1
    ensures r.desk == Desktop.Launch(s.desk, appId, None)
    ensures r.store == Settings.TrackAppOpen(
      Settings.TrackShortcut(s.store.(history := Settings.AddToHistory(s.store.history, appId)), now), appId, now)
    ensures !r.paletteOpen && r.achievementsOpen == s.achievementsOpen
  {
    var store1 := s.store.(history := Settings.AddToHistory(s.store.history, appId));
    var store2 := Settings.TrackShortcut(store1, now);
    var s3 := LaunchApp(s.(store := store2), appId, None, now);
    s3.(paletteOpen := false)
  }

  /** Every palette entry names a registered application, so the palette can launch each of them. */
  lemma PaletteEntriesLaunchable()
    ensures forall i :: 0 <= i < |Palette.AppsList| ==> Palette.AppsList[i].id in Desktop.Apps
  {
  }

  /** After a launch from the palette, the app heads the history and its window has focus. */
  lemma PaletteLaunchFocuses(s: Session, appId: string, now: int)
    requires appId in Desktop.Apps && Desktop.UniqueIds(s.desk.windows)
    ensures var r := PaletteLaunch(s, appId, now);
      r.store.history[0] == appId && r.desk.activeId == Some(appId) && Desktop.FocusValid(r.desk)
  {
    Desktop.LaunchFocusValid(s.desk, appId, None);
  }

  /**
   * Escape does not clear the focus it closes: a second Escape calls `close`
   * on an id that no longer has a window, and changes nothing.
   */
  lemma EscapeTwiceIsOnce(s: Session)
    requires !s.paletteOpen && !s.achievementsOpen
    ensures var esc := KeyPress("Escape", false, false);
      DesktopKey(DesktopKey(s, esc, 0), esc, 0) == DesktopKey(s, esc, 0)
  {
    if s.desk.activeId.Some? {
      Desktop.CloseTwice(s.desk, s.desk.activeId.value);
    }
  }

  /** Alt+Tab counts as a shortcut even when no window is open. */
  lemma AltTabCountsShortcut(s: Session, now: int)
    ensures var r := DesktopKey(s, KeyPress("Tab", false, true), now);
      r.store.progress.shortcutsUsed == s.store.progress.shortcutsUsed + 1
  {
  }

  /** The invariants the desktop keeps: distinct, registered windows and a duplicate-free history. */
  ghost predicate Inv(s: Session)
  {
    Desktop.UniqueIds(s.desk.windows) && Desktop.Registered(s.desk.windows) && NoDup(s.store.history)
  }

  lemma LaunchAppKeepsInv(s: Session, key: string, data: Option<string>, now: int)
    requires key in Desktop.Apps && Inv(s)
    ensures Inv(LaunchApp(s, key, data, now))
    ensures |LaunchApp(s, key, data, now).desk.windows| <= |Desktop.Apps|
  {
    Desktop.LaunchKeepsUnique(s.desk, key, data);
    Desktop.LaunchKeepsRegistered(s.desk, key, data);
    Desktop.WindowCountBound(LaunchApp(s, key, data, now).desk.windows);
  }

  lemma DesktopKeyKeepsInv(s: Session, k: KeyPress, now: int)
    requires Inv(s)
    ensures Inv(DesktopKey(s, k, now))
  {
    if k.key == "Escape" && !s.paletteOpen && !s.achievementsOpen && s.desk.activeId.Some? {
      Desktop.CloseKeepsUnique(s.desk, s.desk.activeId.value);
      Desktop.CloseKeepsRegistered(s.desk, s.desk.activeId.value);
    }
  }

  lemma PaletteLaunchKeepsInv(s: Session, appId: string, now: int)
    requires appId in Desktop.Apps && Inv(s)
    ensures Inv(PaletteLaunch(s, appId, now))
  {
    Desktop.LaunchKeepsUnique(s.desk, appId, None);
    Desktop.LaunchKeepsRegistered(s.desk, appId, None);
  }
}

=== FILE: settings.dfy ===
/**
 * The persisted settings store: achievements and the progress counters that
 * unlock them, the notification queue, the command-palette history and the
 * skip-boot flag. Each store action is a pure function from the store (and
 * the inputs the browser would supply: the current time for notification
 * ids, the hour of day) to the next store.
 */
module Settings {
  import opened Wrappers
  import opened Seqs

  /** An achievement definition. */
  datatype Achievement = Achievement(id: string, name: string, description: string, icon: string, requirement: int)

  /** The eight achievements, in declaration order. */
  const Achievements: seq<Achievement> := [
    Achievement("explorer", "Explorer", "Open 3 different applications", "\U{1F5FA}\U{FE0F}", 3),
    Achievement("terminal_master", "Terminal Master", "Execute 5 terminal commands", "\U{1F4BB}", 5),
    Achievement("snake_charmer", "Snake Charmer", "Score 10+ points in Snake game", "\U{1F40D}", 10),
    Achievement("curious_cat", "Curious Cat", "Expand all project cards", "\U{1F50D}", 5),
    Achievement("power_user", "Power User", "Use 3 keyboard shortcuts", "\U{2328}\U{FE0F}", 3),
    Achievement("full_tour", "Full Tour", "Visit About, Projects, and Contact", "\U{1F3AF}", 3),
    Achievement("night_owl", "Night Owl", "Visit the portfolio after 10 PM", "\U{1F989}", 1),
    Achievement("speed_demon", "Speed Demon", "Open an app within 2 seconds of boot", "\U{26A1}", 1)
  ]

  const ExplorerRequirement := 3
  const TerminalMasterRequirement := 5
  const SnakeCharmerRequirement := 10
  const PowerUserRequirement := 3
  const FullTourRequirement := 3

  /** The thresholds the trackers test are the `requirement` fields of the table (Full Tour's `3` is written inline). */
  lemma RequirementsMatchTable()
    ensures ExplorerRequirement == Achievements[0].requirement
    ensures TerminalMasterRequirement == Achievements[1].requirement
    ensures SnakeCharmerRequirement == Achievements[2].requirement
    ensures PowerUserRequirement == Achievements[4].requirement
    ensures FullTourRequirement == Achievements[5].requirement
  {
  }

  /** The apps whose first visit counts towards the Full Tour. */
  const Sections: seq<string> := ["about", "projects", "contact"]

  /** What a caller hands to `addNotification`. */
  datatype Note = Note(kind: string, title: string, message: string, duration: int)

  /** A queued notification: the payload plus the id stamped from the clock. */
  datatype Notification = Notification(note: Note, id: int)

  datatype Progress = Progress(
    appsOpened: seq<string>,
    commandsExecuted: int,
    highScore: int,
    projectsExpanded: int,
    shortcutsUsed: int,
    sectionsVisited: seq<string>,
    bootTime: Option<int>)

  datatype Store = Store(
    skipBoot: bool,
    notifications: seq<Notification>,
    achievements: seq<string>,
    progress: Progress,
    history: seq<string>)

  const Initial := Store(false, [], [], Progress([], 0, 0, 0, 0, [], None), [])

  /** `Object.values(ACHIEVEMENTS).find(a => a.id === id)`. */
  function FindAchievement(id: string): (r: Option<Achievement>)
    ensures r.Some? ==> r.value in Achievements && r.value.id == id
    ensures r.None? <==> forall i :: 0 <= i < |Achievements| ==> Achievements[i].id != id
  {
    FindIn(Achievements, id)
  }

  function FindIn(list: seq<Achievement>, id: string): (r: Option<Achievement>)
    ensures r.Some? ==> r.value in list && r.value.id == id
    ensures r.None? <==> forall i :: 0 <= i < |list| ==> list[i].id != id
  {
    if list == [] then None
    else if list[0].id == id then Some(list[0])
    else FindIn(list[1..], id)
  }

  /** The notification shown for a first unlock. */
  function UnlockNote(a: Achievement): Note
  {
    Note("achievement", "\U{1F3C6} Achievement Unlocked!", a.icon + " " + a.name, 5000)
  }

  /** The notifications a first unlock of `id` queues: one, if it is defined. */
  function NewNotes(id: string, now: int): seq<Notification>
  {
    match FindAchievement(id)
    case Some(a) => [Notification(UnlockNote(a), now)]
    case None => []
  }

  // ----- Notifications -----

  /** `addNotification`: appends at the end, stamped with the current time. */
  function AddNotification(s: Store, note: Note, now: int): (r: Store)
    ensures r.notifications == s.notifications + [Notification(note, now)]
    ensures r.(notifications := s.notifications) == s
  {
    s.(notifications := s.notifications + [Notification(note, now)])
  }

  /** `removeNotification`: drops every entry with this id. */
  function RemoveNotification(s: Store, id: int): (r: Store)
    ensures forall i :: 0 <= i < |r.notifications| ==> r.notifications[i].id != id
    ensures forall i :: 0 <= i < |s.notifications| && s.notifications[i].id != id ==>
      s.notifications[i] in r.notifications
    ensures forall n: Notification :: n.id != id ==>
      multiset(r.notifications)[n] == multiset(s.notifications)[n]
    ensures IsSubseq(r.notifications, s.notifications)
    ensures r.(notifications := s.notifications) == s
  {
    DropIdIsSubseq(s.notifications, id);
    s.(notifications := DropId(s.notifications, id))
  }

  function DropId(ns: seq<Notification>, id: int): (r: seq<Notification>)
    ensures forall i :: 0 <= i < |r| ==> r[i].id != id && r[i] in ns
    ensures forall i :: 0 <= i < |ns| && ns[i].id != id ==> ns[i] in r
    ensures forall n: Notification :: n.id != id ==> multiset(r)[n] == multiset(ns)[n]
  {
    if ns == [] then []
    else
      assert ns == [ns[0]] + ns[1..];
      if ns[0].id != id then [ns[0]] + DropId(ns[1..], id)
      else DropId(ns[1..], id)
  }

  lemma {:induction false} DropIdIsSubseq(ns: seq<Notification>, id: int)
    ensures IsSubseq(DropId(ns, id), ns)
  {
    if ns != [] {
      DropIdIsSubseq(ns[1..], id);
      if ns[0].id == id {
        SubseqSkip(DropId(ns[1..], id), ns);
      }
    }
  }

  lemma {:induction false} DropIdAppend(xs: seq<Notification>, ys: seq<Notification>, id: int)
    ensures DropId(xs + ys, id) == DropId(xs, id) + DropId(ys, id)
  {
    if xs == [] {
      assert xs + ys == ys;
    } else {
      assert (xs + ys)[1..] == xs[1..] + ys;
      DropIdAppend(xs[1..], ys, id);
    }
  }

  /**
   * Dismissing the notification just added undoes the add, together with any
   * older notification that happened to get the same time stamp.
   */
  lemma RemoveUndoesAdd(s: Store, note: Note, now: int)
    ensures RemoveNotification(AddNotification(s, note, now), now) == RemoveNotification(s, now)
  {
    DropIdAppend(s.notifications, [Notification(note, now)], now);
  }

  // ----- Achievements -----

  /**
   * `unlockAchievement`: records the id once; the first unlock of a defined
   * achievement also queues one achievement notification.
   */
  function Unlock(s: Store, id: string, now: int): (r: Store)
    ensures forall x :: x in r.achievements <==> x in s.achievements || x == id
    ensures id in s.achievements ==> r == s
    ensures id !in s.achievements ==> r.achievements == s.achievements + [id]
    ensures id !in s.achievements ==>
      r.notifications == s.notifications + NewNotes(id, now)
    ensures r.progress == s.progress && r.history == s.history && r.skipBoot == s.skipBoot
  {
    if id in s.achievements then s
    else
      var s1 := s.(achievements := s.achievements + [id]);
      match FindAchievement(id)
      case Some(a) => AddNotification(s1, UnlockNote(a), now)
      case None => s1
  }

  /** Unlocking never loses an achievement and never records one twice. */
  lemma UnlockKeepsSet(s: Store, id: string, now: int)
    requires NoDup(s.achievements)
    ensures NoDup(Unlock(s, id, now).achievements)
    ensures s.achievements <= Unlock(s, id, now).achievements
  {
  }

  /** A second unlock of the same achievement changes nothing, whatever the time. */
  lemma UnlockIdempotent(s: Store, id: string, t1: int, t2: int)
    ensures Unlock(Unlock(s, id, t1), id, t2) == Unlock(s, id, t1)
  {
  }

  /** Unlocks of the same id, repeated: the notification count. */
  function UnlockTimes(s: Store, id: string, times: seq<int>): Store
  {
    if times == [] then s else Unlock(UnlockTimes(s, id, times[..|times| - 1]), id, times[|times| - 1])
  }

  /**
   * However often an achievement is unlocked, exactly one notification is
   * queued for it: one when it is defined and new, none otherwise.
   */
  lemma {:induction false} RepeatedUnlockNotifiesOnce(s: Store, id: string, times: seq<int>)
    requires |times| > 0
    ensures var r := UnlockTimes(s, id, times);
      |r.notifications| == |s.notifications| +
        if id !in s.achievements && FindAchievement(id).Some? then 1 else 0
  {
    if |times| > 1 {
      RepeatedUnlockNotifiesOnce(s, id, times[..|times| - 1]);
      assert times[..|times| - 1] != [];
    }
  }

  /** Notification payloads are only ever appended, never reordered. */
  lemma UnlockAppendsNotifications(s: Store, id: string, now: int)
    ensures s.notifications <= Unlock(s, id, now).notifications
  {
  }

  // ----- Progress tracking -----

  /**
   * `trackAppOpen`. Both writes spread the progress record read on entry, so
   * when a section app is opened for the first time, the second write
   * restores the old `appsOpened` list: the app is counted for the Full Tour
   * but not for the Explorer list (the Explorer check itself already saw the
   * longer list).
   */
  function TrackAppOpen(s: Store, app: string, now: int): (r: Store)
    ensures app in s.progress.appsOpened ==> r == s
    ensures app !in s.progress.appsOpened ==>
      r.progress.appsOpened ==
        if app in Sections && app !in s.progress.sectionsVisited then s.progress.appsOpened
        else s.progress.appsOpened + [app]
    ensures app !in s.progress.appsOpened && app in Sections && app !in s.progress.sectionsVisited ==>
      r.progress.sectionsVisited == s.progress.sectionsVisited + [app]
    ensures !(app !in s.progress.appsOpened && app in Sections && app !in s.progress.sectionsVisited) ==>
      r.progress.sectionsVisited == s.progress.sectionsVisited
    ensures r.progress.(appsOpened := s.progress.appsOpened, sectionsVisited := s.progress.sectionsVisited) == s.progress
    ensures "explorer" in r.achievements <==>
      "explorer" in s.achievements || (app !in s.progress.appsOpened && |s.progress.appsOpened| + 1 >= ExplorerRequirement)
    ensures "full_tour" in r.achievements <==>
      "full_tour" in s.achievements
      || (app !in s.progress.appsOpened && app in Sections && app !in s.progress.sectionsVisited
          && |s.progress.sectionsVisited| + 1 >= FullTourRequirement)
    ensures s.achievements <= r.achievements
    ensures r.history == s.history && r.skipBoot == s.skipBoot
  {
    var p := s.progress;
    if app in p.appsOpened then s
    else
      var s2 := RecordOpen(s, app, now);
      if app in Sections && app !in p.sectionsVisited then RecordSection(s2, p, app, now)
      else s2
  }

  /** The first write of `trackAppOpen`: the app joins the opened list; Explorer at three. */
  function RecordOpen(s: Store, app: string, now: int): (r: Store)
    ensures r.progress == s.progress.(appsOpened := s.progress.appsOpened + [app])
    ensures forall x :: x in r.achievements <==>
      x in s.achievements || (x == "explorer" && |s.progress.appsOpened| + 1 >= ExplorerRequirement)
    ensures r.history == s.history && r.skipBoot == s.skipBoot
  {
    var apps := s.progress.appsOpened + [app];
    var s1 := s.(progress := s.progress.(appsOpened := apps));
    if |apps| >= ExplorerRequirement then Unlock(s1, "explorer", now) else s1
  }

  /**
   * The second write of `trackAppOpen`: the progress record `p` read on entry,
   * with the section added, replaces the current one; Full Tour at three.
   */
  function RecordSection(s: Store, p: Progress, app: string, now: int): (r: Store)
    ensures r.progress == p.(sectionsVisited := p.sectionsVisited + [app])
    ensures forall x :: x in r.achievements <==>
      x in s.achievements || (x == "full_tour" && |p.sectionsVisited| + 1 >= FullTourRequirement)
    ensures r.history == s.history && r.skipBoot == s.skipBoot
  {
    var visited := p.sectionsVisited + [app];
    var s3 := s.(progress := p.(sectionsVisited := visited));
    if |visited| >= FullTourRequirement then Unlock(s3, "full_tour", now) else s3
  }

  /**
   * The stale write in action: on a fresh store, opening About records the
   * section but leaves the opened-apps list empty; opening it again then
   * records it as opened.
   */
  lemma TrackAppOpenLosesSectionApps(now: int)
    ensures TrackAppOpen(Initial, "about", now).progress.appsOpened == []
    ensures TrackAppOpen(Initial, "about", now).progress.sectionsVisited == ["about"]
    ensures TrackAppOpen(TrackAppOpen(Initial, "about", now), "about", now).progress.appsOpened == ["about"]
  {
  }

  /** Opening an app that is already counted is a no-op. */
  lemma TrackAppOpenIdempotent(s: Store, app: string, t1: int, t2: int)
    requires app !in Sections || app in s.progress.sectionsVisited
    ensures TrackAppOpen(TrackAppOpen(s, app, t1), app, t2) == TrackAppOpen(s, app, t1)
  {
  }

  /** `trackCommand`: one more command; Terminal Master at five. */
  function TrackCommand(s: Store, now: int): (r: Store)
    ensures r.progress == s.progress.(commandsExecuted := s.progress.commandsExecuted + 1)
    ensures "terminal_master" in r.achievements <==>
      "terminal_master" in s.achievements || s.progress.commandsExecuted + 1 >= TerminalMasterRequirement
    ensures s.achievements <= r.achievements
    ensures r.history == s.history && r.skipBoot == s.skipBoot
  {
    var count := s.progress.commandsExecuted + 1;
    var s1 := s.(progress := s.progress.(commandsExecuted := count));
    if count >= TerminalMasterRequirement then Unlock(s1, "terminal_master", now) else s1
  }

  /** Commands run `n` times from a store. */
  function CommandTimes(s: Store, n: nat, now: int): Store
  {
    if n == 0 then s else TrackCommand(CommandTimes(s, n - 1, now), now)
  }

  /**
   * `n` commands add `n` to the count, and Terminal Master is held afterwards
   * exactly when it was held before or the count reached five.
   */
  lemma {:induction false} CommandCount(s: Store, n: nat, now: int)
    ensures CommandTimes(s, n, now).progress.commandsExecuted == s.progress.commandsExecuted + n
    ensures "terminal_master" in CommandTimes(s, n, now).achievements <==>
      "terminal_master" in s.achievements || (n > 0 && s.progress.commandsExecuted + n >= TerminalMasterRequirement)
  {
    if n > 0 {
      CommandCount(s, n - 1, now);
      var prev := CommandTimes(s, n - 1, now);
      assert CommandTimes(s, n, now) == TrackCommand(prev, now);
    }
  }

  /** From a fresh store, Terminal Master is unlocked exactly from the fifth command on. */
  lemma TerminalMasterAtFive(n: nat, now: int)
    ensures CommandTimes(Initial, n, now).progress.commandsExecuted == n
    ensures "terminal_master" in CommandTimes(Initial, n, now).achievements <==> n >= TerminalMasterRequirement
  {
    CommandCount(Initial, n, now);
  }

  /** `trackShortcut`: one more shortcut; Power User at three. */
  function TrackShortcut(s: Store, now: int): (r: Store)
    ensures r.progress == s.progress.(shortcutsUsed := s.progress.shortcutsUsed + 1)
    ensures "power_user" in r.achievements <==>
      "power_user" in s.achievements || s.progress.shortcutsUsed + 1 >= PowerUserRequirement
    ensures s.achievements <= r.achievements
    ensures r.history == s.history && r.skipBoot == s.skipBoot
  {
    var count := s.progress.shortcutsUsed + 1;
    var s1 := s.(progress := s.progress.(shortcutsUsed := count));
    if count >= PowerUserRequirement then Unlock(s1, "power_user", now) else s1
  }

  /** Shortcuts used `n` times from a store. */
  function ShortcutTimes(s: Store, n: nat, now: int): Store
  {
    if n == 0 then s else TrackShortcut(ShortcutTimes(s, n - 1, now), now)
  }

  /**
   * `n` shortcuts add `n` to the count, and Power User is held afterwards
   * exactly when it was held before or the count reached three.
   */
  lemma {:induction false} ShortcutCount(s: Store, n: nat, now: int)
    ensures ShortcutTimes(s, n, now).progress.shortcutsUsed == s.progress.shortcutsUsed + n
    ensures "power_user" in ShortcutTimes(s, n, now).achievements <==>
      "power_user" in s.achievements || (n > 0 && s.progress.shortcutsUsed + n >= PowerUserRequirement)
  {
    if n > 0 {
      ShortcutCount(s, n - 1, now);
      var prev := ShortcutTimes(s, n - 1, now);
      assert ShortcutTimes(s, n, now) == TrackShortcut(prev, now);
    }
  }

  /** From a fresh store, Power User is unlocked exactly from the third shortcut on. */
  lemma PowerUserAtThree(n: nat, now: int)
    ensures ShortcutTimes(Initial, n, now).progress.shortcutsUsed == n
    ensures "power_user" in ShortcutTimes(Initial, n, now).achievements <==> n >= PowerUserRequirement
  {
    ShortcutCount(Initial, n, now);
  }

  /** `trackSnakeScore`: Snake Charmer at ten points; the high score is the best so far. */
  function TrackSnakeScore(s: Store, score: int, now: int): (r: Store)
    ensures r.progress.highScore >= s.progress.highScore && r.progress.highScore >= score
    ensures r.progress.highScore == s.progress.highScore || r.progress.highScore == score
    ensures r.progress == s.progress.(highScore := r.progress.highScore)
    ensures "snake_charmer" in r.achievements <==>
      "snake_charmer" in s.achievements || score >= SnakeCharmerRequirement
    ensures s.achievements <= r.achievements
    ensures r.history == s.history && r.skipBoot == s.skipBoot
  {
    var s1 := if score >= SnakeCharmerRequirement then Unlock(s, "snake_charmer", now) else s;
    if score > s.progress.highScore then s1.(progress := s.progress.(highScore := score)) else s1
  }

  /** The high score only rises, and does not depend on the order of two games. */
  lemma HighScoreCommutes(s: Store, a: int, b: int, t1: int, t2: int)
    ensures TrackSnakeScore(TrackSnakeScore(s, a, t1), b, t2).progress ==
            TrackSnakeScore(TrackSnakeScore(s, b, t1), a, t2).progress
  {
  }

  /** The night hours: from 22:00 up to 04:59. */
  predicate IsNight(hour: int)
  {
    hour >= 22 || hour < 5
  }

  /** `checkNightOwl`, with the clock's hour supplied by the caller. */
  function CheckNightOwl(s: Store, hour: int, now: int): (r: Store)
    ensures "night_owl" in r.achievements <==> "night_owl" in s.achievements || IsNight(hour)
    ensures !IsNight(hour) ==> r == s
    ensures s.achievements <= r.achievements
    ensures r.progress == s.progress && r.history == s.history && r.skipBoot == s.skipBoot
  {
    if IsNight(hour) then Unlock(s, "night_owl", now) else s
  }

  /** Every hour of the day: Night Owl is earned at 22, 23, 0, 1, 2, 3 and 4 o'clock. */
  lemma NightHours(hour: int)
    requires 0 <= hour < 24
    ensures IsNight(hour) <==> hour in {22, 23, 0, 1, 2, 3, 4}
  {
  }

  // ----- Command-palette history -----

  const HistoryLimit := 5

  /** `addToHistory`: most recent first, no repeats, at most five entries. */
  function AddToHistory(history: seq<string>, app: string): (r: seq<string>)
    ensures 1 <= |r| <= HistoryLimit && r[0] == app
    ensures app !in r[1..]
    ensures NoDup(history) ==> NoDup(r)
    ensures forall i :: 0 <= i < |r| ==> r[i] == app || r[i] in history
    ensures IsSubseq(r[1..], history)
    ensures var rest := Remove(history, app);
      |r| == (if |rest| + 1 > HistoryLimit then HistoryLimit else |rest| + 1) && r[1..] == rest[..|r| - 1]
  {
    var rest := Remove(history, app);
    var all := [app] + rest;
    assert all[1..] == rest;
    RemoveIsSubseq(history, app);
    SubseqPrefix(rest, history, if |all| > HistoryLimit then HistoryLimit - 1 else |rest|);
    assert NoDup(history) ==> NoDup(all) by {
      if NoDup(history) {
        RemoveNoDup(history, app);
      }
    }
    if |all| > HistoryLimit then
      assert all[..HistoryLimit][1..] == rest[..HistoryLimit - 1];
      all[..HistoryLimit]
    else
      assert rest[..|rest|] == rest;
      all
  }

  /** Recording the same app twice in a row is recording it once. */
  lemma AddToHistoryIdempotent(history: seq<string>, app: string)
    ensures AddToHistory(AddToHistory(history, app), app) == AddToHistory(history, app)
  {
    var h := AddToHistory(history, app);
    assert h == [app] + h[1..];
    assert h[0] == app;
    assert Remove(h, app) == Remove(h[1..], app);
    RemoveAbsent(h[1..], app);
  }

  /**
   * An app already in a short history moves to the front; the others keep
   * their order and nothing is lost.
   */
  lemma AddToHistoryKeepsOthers(history: seq<string>, app: string)
    requires |history| < HistoryLimit || app in history
    requires |history| <= HistoryLimit
    ensures forall x :: x in history ==> x in AddToHistory(history, app)
  {
    var rest := Remove(history, app);
    if app in history {
      RemoveShrinks(history, app);
    }
  }

  lemma {:induction false} RemoveShrinks(xs: seq<string>, x: string)
    requires x in xs
    ensures |Remove(xs, x)| < |xs|
  {
    if xs[0] != x {
      RemoveShrinks(xs[1..], x);
    }
  }

  /** `setSkipBoot`. */
  function SetSkipBoot(s: Store, skip: bool): (r: Store)
    ensures r.skipBoot == skip && r.(skipBoot := s.skipBoot) == s
  {
    s.(skipBoot := skip)
  }
}

=== FILE: stablesort.dfy ===
/**
 * `Array.prototype.sort` with a comparator of the form `(a, b) => key(a) - key(b)`
 * (or any comparator that orders by an integer key), which ECMAScript 2019
 * requires to be stable. Modelled as a stable insertion sort; the lemmas show
 * the result is ordered by key, is a permutation of the input, and keeps the
 * input order among elements with equal keys.
 */
module StableSort {

  /** Non-decreasing by key. */
  ghost predicate SortedBy<T>(key: T -> int, xs: seq<T>)
  {
    forall i, j :: 0 <= i < j < |xs| ==> key(xs[i]) <= key(xs[j])
  }

  /** The elements whose key is exactly `k`, in order. */
  function WithKey<T>(key: T -> int, k: int, xs: seq<T>): seq<T>
  {
    if xs == [] then []
    else if key(xs[0]) == k then [xs[0]] + WithKey(key, k, xs[1..])
    else WithKey(key, k, xs[1..])
  }

  /** Inserts `x` after every element whose key is not greater than `x`'s. */
  function Insert<T>(key: T -> int, x: T, ys: seq<T>): seq<T>
  {
    if ys == [] then [x]
    else if key(x) < key(ys[0]) then [x] + ys
    else [ys[0]] + Insert(key, x, ys[1..])
  }

  /** Insertion sort, taking the input elements from first to last. */
  function Sort<T>(key: T -> int, xs: seq<T>): seq<T>
  {
    if xs == [] then []
    else Insert(key, xs[|xs| - 1], Sort(key, xs[..|xs| - 1]))
  }

  lemma {:induction false} InsertPermutes<T>(key: T -> int, x: T, ys: seq<T>)
    ensures multiset(Insert(key, x, ys)) == multiset(ys) + multiset{x}
    ensures |Insert(key, x, ys)| == |ys| + 1
  {
    if ys != [] && key(x) >= key(ys[0]) {
      InsertPermutes(key, x, ys[1..]);
      assert ys == [ys[0]] + ys[1..];
    }
  }

  /** Insertion keeps a common lower bound on the keys. */
  lemma {:induction false} InsertBounded<T>(key: T -> int, x: T, ys: seq<T>, m: int)
    requires key(x) >= m
    requires forall i :: 0 <= i < |ys| ==> key(ys[i]) >= m
    ensures forall i :: 0 <= i < |Insert(key, x, ys)| ==> key(Insert(key, x, ys)[i]) >= m
  {
    if ys != [] && key(x) >= key(ys[0]) {
      InsertBounded(key, x, ys[1..], m);
    }
  }

  lemma {:induction false} InsertSorted<T>(key: T -> int, x: T, ys: seq<T>)
    requires SortedBy(key, ys)
    ensures SortedBy(key, Insert(key, x, ys))
  {
    if ys != [] && key(x) >= key(ys[0]) {
      assert SortedBy(key, ys[1..]);
      InsertSorted(key, x, ys[1..]);
      InsertBounded(key, x, ys[1..], key(ys[0]));
    }
  }

  /** Inserting into a sorted sequence appends `x` to the run of its own key. */
  lemma {:induction false} InsertWithKey<T>(key: T -> int, k: int, x: T, ys: seq<T>)
    requires SortedBy(key, ys)
    ensures WithKey(key, k, Insert(key, x, ys))
         == WithKey(key, k, ys) + (if key(x) == k then [x] else [])
  {
    if ys == [] {
    } else if key(x) < key(ys[0]) {
      if key(x) == k {
        NoneWithSmallerKey(key, k, ys);
      }
    } else {
      assert SortedBy(key, ys[1..]);
      InsertWithKey(key, k, x, ys[1..]);
    }
  }

  /** A sorted sequence whose first key exceeds `k` has no element of key `k`. */
  lemma {:induction false} NoneWithSmallerKey<T>(key: T -> int, k: int, ys: seq<T>)
    requires SortedBy(key, ys) && ys != [] && k < key(ys[0])
    ensures WithKey(key, k, ys) == []
  {
    if |ys| > 1 {
      assert key(ys[0]) <= key(ys[1]);
      assert SortedBy(key, ys[1..]);
      NoneWithSmallerKey(key, k, ys[1..]);
    }
  }

  lemma {:induction false} WithKeyAppend<T>(key: T -> int, k: int, xs: seq<T>, ys: seq<T>)
    ensures WithKey(key, k, xs + ys) == WithKey(key, k, xs) + WithKey(key, k, ys)
  {
    if xs == [] {
      assert xs + ys == ys;
    } else {
      assert (xs + ys)[1..] == xs[1..] + ys;
      WithKeyAppend(key, k, xs[1..], ys);
    }
  }

  /**
   * The sort's result is ordered by key, is a permutation of the input and,
   * for every key, lists the elements with that key in input order.
   */
  lemma {:induction false} SortCorrect<T>(key: T -> int, xs: seq<T>)
    ensures SortedBy(key, Sort(key, xs))
    ensures multiset(Sort(key, xs)) == multiset(xs)
    ensures |Sort(key, xs)| == |xs|
    ensures forall k :: WithKey(key, k, Sort(key, xs)) == WithKey(key, k, xs)
  {
    if xs != [] {
      var init := xs[..|xs| - 1];
      var x := xs[|xs| - 1];
      assert xs == init + [x];
      SortCorrect(key, init);
      InsertSorted(key, x, Sort(key, init));
      InsertPermutes(key, x, Sort(key, init));
      forall k ensures WithKey(key, k, Sort(key, xs)) == WithKey(key, k, xs) {
        InsertWithKey(key, k, x, Sort(key, init));
        WithKeyAppend(key, k, init, [x]);
      }
    }
  }

  /**
   * With only the keys 0 and 1, the stable sort is the stable partition: the
   * key-0 elements in input order, then the key-1 elements in input order.
   */
  lemma {:induction false} SortTwoKeys<T>(key: T -> int, xs: seq<T>)
    requires forall i :: 0 <= i < |xs| ==> key(xs[i]) == 0 || key(xs[i]) == 1
    ensures Sort(key, xs) == WithKey(key, 0, xs) + WithKey(key, 1, xs)
  {
    SortCorrect(key, xs);
    var r := Sort(key, xs);
    forall i | 0 <= i < |r| ensures key(r[i]) == 0 || key(r[i]) == 1 {
      assert r[i] in multiset(xs);
    }
    SortedTwoKeys(key, r);
  }

  lemma {:induction false} SortedTwoKeys<T>(key: T -> int, r: seq<T>)
    requires SortedBy(key, r)
    requires forall i :: 0 <= i < |r| ==> key(r[i]) == 0 || key(r[i]) == 1
    ensures r == WithKey(key, 0, r) + WithKey(key, 1, r)
  {
    if r != [] {
      assert SortedBy(key, r[1..]);
      SortedTwoKeys(key, r[1..]);
      if key(r[0]) == 1 {
        NoneWithSmallerKey(key, 0, r);
        AllWithKey(key, 1, r);
      }
    }
  }

  lemma {:induction false} AllWithKey<T>(key: T -> int, k: int, r: seq<T>)
    requires forall i :: 0 <= i < |r| ==> key(r[i]) == k
    ensures WithKey(key, k, r) == r
  {
    if r != [] {
      AllWithKey(key, k, r[1..]);
    }
  }
}

=== FILE: stage.dfy ===
/**
 * The top-level screen sequence: power button, BIOS memory count, bootloader
 * menu, then the desktop, the 3D world or the resume. Timers are events: a
 * `Tick` is one 50 ms interval callback during the BIOS screen, and
 * `GrubTimeout` is the 500 ms timer that the last tick schedules. That timer
 * is never cancelled, so it fires whatever the screen is by then.
 */
module Stage {
  import Grub

  datatype Screen = Off | Bios | GrubMenu | DesktopScreen | CyberWorld | Resume

  /**
   * `mem` is the BIOS memory counter; `grubPending` says the timer to the
   * menu is scheduled; `skipBoot` is the persisted setting.
   */
  datatype Boot = Boot(screen: Screen, mem: int, grubPending: bool, skipBoot: bool)

  const MemStep := 2000
  const MemTotal := 64000

  datatype Event =
    | Mount             // first render, with the persisted setting already loaded
    | PowerOn           // the power button (shown only when off)
    | Tick              // the BIOS interval callback
    | GrubTimeout       // the timer scheduled by the last tick
    | Skip              // "Skip Boot Sequence" / "Skip to Desktop" (off, BIOS and menu)
    | Choose(id: string) // the menu's `onSelect`
    | Exit              // leaving the 3D world or the resume

  /** The screen on first render, after the effect that honours the setting. */
  function Start(skipBoot: bool): (r: Boot)
    ensures r.screen == (if skipBoot then DesktopScreen else Off)
    ensures r.mem == 0 && !r.grubPending && r.skipBoot == skipBoot
  {
    Boot(if skipBoot then DesktopScreen else Off, 0, false, skipBoot)
  }

  /** Whether the interval is running: on the BIOS screen until the last tick clears it. */
  predicate Ticking(b: Boot)
  {
    b.screen == Bios && !b.grubPending
  }

  /** The menu's choice, as the handler maps it. */
  function ChooseScreen(id: string): (r: Screen)
    ensures id == "desktop" <==> r == DesktopScreen
    ensures id == "cyberworld" <==> r == CyberWorld
    ensures id == "resume" <==> r == Resume
    ensures id !in Grub.BootIds ==> r == GrubMenu
  {
    if id == "desktop" then DesktopScreen
    else if id == "cyberworld" then CyberWorld
    else if id == "resume" then Resume
    else GrubMenu
  }

  /** One event. Buttons that are not on screen and stopped timers do nothing. */
  function Step(b: Boot, e: Event): (r: Boot)
    ensures r.skipBoot == (b.skipBoot || (e == Skip && b.screen in {Off, Bios, GrubMenu}))
    ensures e == Tick && Ticking(b) && b.mem < MemTotal ==> r == b.(mem := b.mem + MemStep)
    ensures e == Tick && Ticking(b) && b.mem >= MemTotal ==> r == b.(mem := MemTotal, grubPending := true)
    ensures e == Mount && b.skipBoot ==> r == b.(screen := DesktopScreen)
    ensures e == Tick && !Ticking(b) ==> r == b
    ensures e == GrubTimeout && b.grubPending ==> r.screen == GrubMenu && !r.grubPending
    ensures e == GrubTimeout && !b.grubPending ==> r == b
    ensures e == Skip && b.screen in {Off, Bios, GrubMenu} ==> r == b.(screen := DesktopScreen, skipBoot := true)
    ensures Ignored(b, e) ==> r == b
    ensures e == PowerOn && b.screen == Off ==> r == b.(screen := Bios)
    ensures e.Choose? && b.screen == GrubMenu ==> r == b.(screen := ChooseScreen(e.id))
    ensures e == Exit && b.screen in {CyberWorld, Resume} ==> r == b.(screen := GrubMenu)
    ensures r.screen != b.screen ==>
      || (e == Mount && b.skipBoot)
      || (e == PowerOn && b.screen == Off)
      || (e == GrubTimeout && b.grubPending)
      || (e == Skip && b.screen in {Off, Bios, GrubMenu})
      || (e.Choose? && b.screen == GrubMenu)
      || (e == Exit && b.screen in {CyberWorld, Resume})
  {
    match e
    case Mount => if b.skipBoot then b.(screen := DesktopScreen) else b
    case PowerOn => if b.screen == Off then b.(screen := Bios) else b
    case Tick =>
      if !Ticking(b) then b
      else if b.mem >= MemTotal then b.(mem := MemTotal, grubPending := true)
      else b.(mem := b.mem + MemStep)
    case GrubTimeout => if b.grubPending then b.(screen := GrubMenu, grubPending := false) else b
    case Skip =>
      if b.screen in {Off, Bios, GrubMenu} then b.(screen := DesktopScreen, skipBoot := true) else b
    case Choose(id) => if b.screen == GrubMenu then b.(screen := ChooseScreen(id)) else b
    case Exit => if b.screen in {CyberWorld, Resume} then b.(screen := GrubMenu) else b
  }

  /**
   * The events a screen does not react to: a mount without the stored flag,
   * the power button when not off, a menu choice or Skip on a screen that has
   * no such button, Exit outside the 3D world and the resume.
   */
  predicate Ignored(b: Boot, e: Event)
  {
    || (e == Mount && !b.skipBoot)
    || (e == PowerOn && b.screen != Off)
    || (e.Choose? && b.screen != GrubMenu)
    || (e == Skip && b.screen !in {Off, Bios, GrubMenu})
    || (e == Exit && b.screen !in {CyberWorld, Resume})
  }

  /** The counter moves in whole steps within 0..64000; the timer is only pending at the top. */
  ghost predicate Inv(b: Boot)
  {
    && 0 <= b.mem <= MemTotal
    && b.mem % MemStep == 0
    && (b.grubPending ==> b.mem == MemTotal)
    && (b.screen == Off ==> b.mem == 0 && !b.grubPending)
  }

  lemma StartInv(skipBoot: bool)
    ensures Inv(Start(skipBoot))
  {
  }

  lemma StepKeepsInv(b: Boot, e: Event)
    requires Inv(b)
    ensures Inv(Step(b, e))
  {
  }

  /** A sequence of events, in order. */
  function Run(b: Boot, es: seq<Event>): Boot
    decreases |es|
  {
    if es == [] then b else Run(Step(b, es[0]), es[1..])
  }

  lemma {:induction false} RunKeepsInv(b: Boot, es: seq<Event>)
    requires Inv(b)
    ensures Inv(Run(b, es))
    decreases |es|
  {
    if es != [] {
      StepKeepsInv(b, es[0]);
      RunKeepsInv(Step(b, es[0]), es[1..]);
    }
  }

  /** `n` interval callbacks. */
  function Ticks(b: Boot, n: nat): Boot
  {
    if n == 0 then b else Step(Ticks(b, n - 1), Tick)
  }

  /** The BIOS count: after `n <= 32` ticks the counter reads `2000 * n`. */
  lemma {:induction false} BiosCount(skipBoot: bool, n: nat)
    requires n <= MemTotal / MemStep
    ensures Ticks(Boot(Bios, 0, false, skipBoot), n) == Boot(Bios, MemStep * n, false, skipBoot)
  {
    if n > 0 {
      BiosCount(skipBoot, n - 1);
    }
  }

  /**
   * The full boot: power on, 33 ticks (the 33rd sees 64000 and schedules the
   * menu), then the timer shows the menu.
   */
  lemma LongBootReachesMenu()
    ensures var b := Ticks(Step(Start(false), PowerOn), MemTotal / MemStep + 1);
      b == Boot(Bios, MemTotal, true, false) && Step(b, GrubTimeout) == Boot(GrubMenu, MemTotal, false, false)
  {
    BiosCount(false, MemTotal / MemStep);
  }

  /** Skip always lands on the desktop and remembers the setting. */
  lemma SkipReachesDesktop(b: Boot)
    requires b.screen in {Off, Bios, GrubMenu}
    ensures Step(b, Skip).screen == DesktopScreen && Step(b, Skip).skipBoot
    ensures Step(Start(true), Mount).screen == DesktopScreen
  {
  }

  /**
   * The timer scheduled by the last BIOS tick is not cancelled by Skip: a
   * skip in the half second before it fires ends on the menu, not the desktop.
   */
  lemma SkipRacesGrubTimer()
    ensures var b := Ticks(Step(Start(false), PowerOn), MemTotal / MemStep + 1);
      Step(b, Skip).screen == DesktopScreen && Step(Step(b, Skip), GrubTimeout).screen == GrubMenu
  {
    LongBootReachesMenu();
  }

  /** Without a pending timer the desktop is final: no event leaves it. */
  lemma DesktopIsFinal(b: Boot, e: Event)
    requires b.screen == DesktopScreen && !b.grubPending
    ensures Step(b, e).screen == DesktopScreen && !Step(b, e).grubPending
  {
  }

  /** Every id the bootloader menu can emit leaves the menu for its screen, and Exit comes back. */
  lemma MenuChoicesAccepted(b: Boot, selected: int)
    requires b.screen == GrubMenu && Grub.ValidSelection(selected)
    ensures var r := Step(b, Choose(Grub.Select(selected)));
      r.screen in {DesktopScreen, CyberWorld, Resume}
      && (r.screen != DesktopScreen ==> Step(r, Exit).screen == GrubMenu)
    ensures var r := Step(b, Choose(Grub.Select(selected)));
      && (selected == 0 ==> r.screen == DesktopScreen)
      && (selected == 1 ==> r.screen == CyberWorld)
      && (selected == 2 ==> r.screen == Resume)
  {
  }
}

=== FILE: terminal.dfy ===
/**
 * The 2D terminal application (`AppTerminal` in src/App.jsx). Pressing Enter
 * runs the trimmed input line: it echoes a prompt line, dispatches on the
 * lower-cased first word, and may change the working directory or ask the
 * desktop to launch an application.
 */
module Terminal {
  import opened Wrappers
  import opened Text
  import opened FileSystem

  datatype Term = Term(history: seq<string>, input: string, cwd: seq<string>)

  /** The terminal after Enter, and the application it asked to launch. */
  datatype Step = Step(term: Term, launch: Option<string>)

  const Initial: Term := Term(["NEXUS SHELL v3.0", "Type 'help' for commands."], "", ["home", "user"])

  /** The prompt line echoed for every command but `clear`. */
  function Echo(cwd: seq<string>, cmd: string): string
  {
    "user@nexus:/" + Join(cwd, "/") + "$ " + cmd
  }

  /** `cmd.split(' ')[1]`, absent when there is no second piece. */
  function Operand(cmd: string): Option<string>
  {
    var parts := Split(cmd);
    if |parts| > 1 then Some(parts[1]) else None
  }

  /** The command word: the lower-cased first space-separated piece of the trimmed line. */
  function Command(input: string): string
  {
    Lower(Split(Trim(input))[0])
  }

  const Known: set<string> := {"help", "clear", "ls", "skills", "3d", "cd"}

  /** What a command other than `clear` prints, where it leaves the directory, what it launches. */
  datatype Reply = Reply(lines: seq<string>, cwd: seq<string>, launch: Option<string>)

  /** `cd` with the operand `target` (absent when the line has one word). */
  function ChangeDir(cwd: seq<string>, target: Option<string>): (r: Reply)
    ensures |r.lines| <= 1 && r.launch == None
    ensures r.cwd != cwd ==> target.Some?
    ensures target.None? || target == Some("") ==> r == Reply(["cd: missing operand"], cwd, None)
    ensures target == Some("..") && |cwd| > 1 ==> r == Reply([], cwd[..|cwd| - 1], None)
    ensures target == Some("..") && |cwd| <= 1 ==> r == Reply([], cwd, None)
    ensures target.Some? && target.value !in {"", ".."} && IsDirPath(cwd + [target.value]) ==>
      r == Reply([], cwd + [target.value], None)
    ensures target.Some? && target.value !in {"", ".."} && !IsDirPath(cwd + [target.value]) ==>
      r == Reply(["cd: " + target.value + ": No such directory"], cwd, None)
  {
    if target == None || target == Some("") then Reply(["cd: missing operand"], cwd, None)
    else if target == Some("..") then
      Reply([], if |cwd| > 1 then cwd[..|cwd| - 1] else cwd, None)
    else if IsDirPath(cwd + [target.value]) then Reply([], cwd + [target.value], None)
    else Reply(["cd: " + target.value + ": No such directory"], cwd, None)
  }

  /** Dispatch on the command word of the trimmed line `cmd` (any word but `clear`). */
  function Run(cwd: seq<string>, cmd: string, command: string): (r: Reply)
    ensures |r.lines| <= 1
    ensures r.cwd != cwd ==> command == "cd"
    ensures r.launch.Some? ==> command in {"skills", "3d"}
  {
    if command == "help" then Reply(["Commands: ls, cd, clear, skills, 3d"], cwd, None)
    else if command == "ls" then Reply(["projects/  resume.pdf  skills.orbit"], cwd, None)
    else if command == "skills" then Reply(["Launching Skills Orbit..."], cwd, Some("skills"))
    else if command == "3d" then Reply(["Switching to 3D mode..."], cwd, Some("terminal3d"))
    else if command == "cd" then ChangeDir(cwd, Operand(cmd))
    else Reply(["bash: " + command + ": command not found"], cwd, None)
  }

  /** The terminal's reaction to Enter (`handleCmd`). */
  function Enter(t: Term): Step
  {
    Execute(t, Trim(t.input), Command(t.input))
  }

  /** Enter, once the line is trimmed to `cmd` and its command word is `command`. */
  function Execute(t: Term, cmd: string, command: string): Step
  {
    if command == "clear" then Step(Term([], "", t.cwd), None)
    else
      var reply := Run(t.cwd, cmd, command);
      Step(Term(t.history + [Echo(t.cwd, cmd)] + reply.lines, "", reply.cwd), reply.launch)
  }

  /**
   * `clear` empties the history and the input and keeps the directory; every
   * other command appends the prompt echo and then at most one line, and
   * empties the input.
   */
  lemma EnterShape(t: Term)
    ensures Command(t.input) == "clear" ==> Enter(t) == Step(Term([], "", t.cwd), None)
    ensures Command(t.input) != "clear" ==>
      var h := Enter(t).term.history;
      && |t.history| + 1 <= |h| <= |t.history| + 2
      && h[..|t.history| + 1] == t.history + [Echo(t.cwd, Trim(t.input))]
      && Enter(t).term.input == ""
  {
    if Command(t.input) != "clear" {
      var e := t.history + [Echo(t.cwd, Trim(t.input))];
      var reply := Run(t.cwd, Trim(t.input), Command(t.input));
      assert (e + reply.lines)[..|t.history| + 1] == e;
    }
  }

  /** Only `skills` and `3d` ask the desktop to launch an application. */
  lemma EnterLaunches(t: Term)
    ensures Enter(t).launch == (if Command(t.input) == "skills" then Some("skills")
                                else if Command(t.input) == "3d" then Some("terminal3d")
                                else None)
  {
    ExecuteLaunches(t, Trim(t.input), Command(t.input));
  }

  lemma ExecuteLaunches(t: Term, cmd: string, command: string)
    ensures Execute(t, cmd, command).launch ==
      (if command == "skills" then Some("skills") else if command == "3d" then Some("terminal3d") else None)
  {
  }

  /** Any command outside the known set prints exactly one "command not found" line. */
  lemma UnknownCommand(t: Term)
    requires Command(t.input) !in Known
    ensures Enter(t) == Step(Term(t.history + [Echo(t.cwd, Trim(t.input)),
                                               "bash: " + Command(t.input) + ": command not found"],
                                  "", t.cwd), None)
  {
    ExecuteUnknown(t, Trim(t.input), Command(t.input));
  }

  lemma ExecuteUnknown(t: Term, cmd: string, command: string)
    requires command !in Known
    ensures Execute(t, cmd, command) ==
      Step(Term(t.history + [Echo(t.cwd, cmd), "bash: " + command + ": command not found"], "", t.cwd), None)
  {
  }

  /**
   * The working directory changes only through `cd`: into `cwd + [target]`
   * when that names a directory, or up one level when more than one segment
   * is left.
   */
  lemma CwdChanges(t: Term)
    ensures var c := Enter(t).term.cwd;
      || c == t.cwd
      || (|t.cwd| > 1 && c + [t.cwd[|t.cwd| - 1]] == t.cwd && Operand(Trim(t.input)) == Some(".."))
      || (IsDirPath(c) && Operand(Trim(t.input)).Some? && c == t.cwd + [Operand(Trim(t.input)).value])
    ensures Enter(t).term.cwd != t.cwd ==> Command(t.input) == "cd"
  {
    EnterCwd(t);
    ChangeDirMoves(t.cwd, Operand(Trim(t.input)));
  }

  /** Where one `cd` can leave the directory. */
  lemma ChangeDirMoves(cwd: seq<string>, target: Option<string>)
    ensures var c := ChangeDir(cwd, target).cwd;
      || c == cwd
      || (|cwd| > 1 && c + [cwd[|cwd| - 1]] == cwd && target == Some(".."))
      || (IsDirPath(c) && target.Some? && c == cwd + [target.value])
  {
    var c := ChangeDir(cwd, target).cwd;
    if |cwd| > 1 && c == cwd[..|cwd| - 1] {
      assert c + [cwd[|cwd| - 1]] == cwd;
    }
  }

  /** Only `cd` moves: Enter leaves the directory where `cd` with the line's operand puts it. */
  lemma EnterCwd(t: Term)
    ensures Enter(t).term.cwd ==
      if Command(t.input) == "cd" then ChangeDir(t.cwd, Operand(Trim(t.input))).cwd else t.cwd
  {
    ExecuteCwd(t, Trim(t.input), Command(t.input));
  }

  lemma ExecuteCwd(t: Term, cmd: string, command: string)
    ensures Execute(t, cmd, command).term.cwd ==
      if command == "cd" then ChangeDir(t.cwd, Operand(cmd)).cwd else t.cwd
  {
  }

  /**
   * The converse of `CwdChanges`: `cd` with an operand naming a directory
   * under the current one enters it, and `cd ..` goes up while more than one
   * segment is left.
   */
  lemma CdMoves(t: Term)
    requires Command(t.input) == "cd" && Operand(Trim(t.input)).Some?
    ensures var x := Operand(Trim(t.input)).value;
      && (x !in {"", ".."} && IsDirPath(t.cwd + [x]) ==> Enter(t).term.cwd == t.cwd + [x])
      && (x == ".." && |t.cwd| > 1 ==> Enter(t).term.cwd == t.cwd[..|t.cwd| - 1])
  {
    EnterCwd(t);
  }

  /**
   * The working directory always names a directory and never has fewer than
   * one segment.
   */
  lemma EnterKeepsCwdValid(t: Term)
    requires IsDirPath(t.cwd) && |t.cwd| >= 1
    ensures IsDirPath(Enter(t).term.cwd) && |Enter(t).term.cwd| >= 1
  {
    var c := Enter(t).term.cwd;
    CwdChanges(t);
    if |t.cwd| > 1 && c + [t.cwd[|t.cwd| - 1]] == t.cwd {
      PrefixOfResolvedIsDir(Root, c, [t.cwd[|t.cwd| - 1]]);
    }
  }

  /** `cd` without an operand prints "missing operand" and stays put. */
  lemma CdMissingOperand(t: Term)
    requires Trim(t.input) == "cd"
    ensures Enter(t).term == Term(t.history + [Echo(t.cwd, "cd"), "cd: missing operand"], "", t.cwd)
  {
    LoneCd(t.input);
    assert Enter(t) == Execute(t, "cd", "cd");
    CdAlone(t);
  }

  lemma CdAlone(t: Term)
    ensures Execute(t, "cd", "cd").term == Term(t.history + [Echo(t.cwd, "cd"), "cd: missing operand"], "", t.cwd)
  {
    SplitNoSpace("cd");
    assert Run(t.cwd, "cd", "cd") == Reply(["cd: missing operand"], t.cwd, None);
  }
}

=== FILE: text.dfy ===
/**
 * The JavaScript string operations the source relies on, over `seq<char>`:
 * `toLowerCase`, `includes`, `trim`, `split(' ')` and `join`.
 */
module Text {

  /** `toLowerCase` on one character (ASCII letters; other characters are kept). */
  function LowerChar(c: char): (r: char)
    ensures 'A' <= c <= 'Z' ==> r != c && 'a' <= r <= 'z'
    ensures 'A' <= c <= 'Z' ==> r as int == c as int + 32
    ensures !('A' <= c <= 'Z') ==> r == c
  {
    if 'A' <= c <= 'Z' then (c as int + 32) as char else c
  }

  /** `s.toLowerCase()`. */
  function Lower(s: string): (r: string)
    ensures |r| == |s|
    ensures forall i :: 0 <= i < |s| ==> r[i] == LowerChar(s[i])
    ensures forall i :: 0 <= i < |r| ==> !('A' <= r[i] <= 'Z')
  {
    if s == [] then [] else [LowerChar(s[0])] + Lower(s[1..])
  }

  /** Lower-casing twice is lower-casing once. */
  lemma LowerIdempotent(s: string)
    ensures Lower(Lower(s)) == Lower(s)
  {
    var l := Lower(s);
    assert forall i :: 0 <= i < |l| ==> LowerChar(l[i]) == l[i];
  }

  /** `q` occurs in `t` as a contiguous block starting at some position. */
  ghost predicate OccursIn(q: string, t: string)
  {
    exists i | 0 <= i <= |t| :: q <= t[i..]
  }

  /** `t.includes(q)`: scans the start positions of `t` from left to right. */
  function Contains(t: string, q: string): (r: bool)
    ensures r <==> OccursIn(q, t)
  {
    if q <= t then
      assert q <= t[0..];
      true
    else if t == [] then false
    else
      var r := Contains(t[1..], q);
      assert forall i :: 1 <= i <= |t| ==> t[i..] == t[1..][i-1..];
      assert OccursIn(q, t) ==> exists i | 1 <= i <= |t| :: q <= t[i..];
      r
  }

  /** Whitespace removed by JavaScript's `trim` (WhiteSpace and LineTerminator). */
  const Whitespace: seq<char> := [
    '\t', '\n', '\U{000B}', '\U{000C}', '\r',        // tab, line feed, vertical tab, form feed, carriage return
    ' ', '\U{00A0}',                                     // space, no-break space
    '\U{1680}',
    '\U{2000}', '\U{2001}', '\U{2002}', '\U{2003}', '\U{2004}', '\U{2005}',
    '\U{2006}', '\U{2007}', '\U{2008}', '\U{2009}', '\U{200A}', // the fixed-width spaces
    '\U{2028}', '\U{2029}',                             // line and paragraph separators
    '\U{202F}', '\U{205F}', '\U{3000}',
    '\U{FEFF}'                                           // byte order mark
  ]

  predicate IsSpace(c: char)
  {
    OneOf(c, Whitespace)
  }

  /** `c` occurs in `cs`. */
  predicate OneOf(c: char, cs: seq<char>)
  {
    cs != [] && (cs[0] == c || OneOf(c, cs[1..]))
  }

  /** Every character is whitespace (this includes the empty string). */
  predicate IsBlank(s: string)
  {
    forall i :: 0 <= i < |s| ==> IsSpace(s[i])
  }

  /** Leading whitespace cut off (`trimStart`). */
  function TrimStart(s: string): (r: string)
    ensures |r| <= |s| && r == s[|s| - |r|..]
    ensures IsBlank(s[..|s| - |r|])
    ensures r != [] ==> !IsSpace(r[0])
  {
    DropWhile(IsSpace, s)
  }

  /** Trailing whitespace cut off (`trimEnd`). */
  function TrimEnd(s: string): (r: string)
    ensures |r| <= |s| && r == s[..|r|]
    ensures IsBlank(s[|r|..])
    ensures r != [] ==> !IsSpace(r[|r| - 1])
  {
    DropLastWhile(IsSpace, s)
  }

  /**
   * The longest suffix of `s` that does not start with a character satisfying
   * `p`. Taking the test as a parameter keeps the proof from unfolding the
   * whitespace table.
   */
  function DropWhile(p: char -> bool, s: string): (r: string)
    ensures |r| <= |s| && r == s[|s| - |r|..]
    ensures forall i :: 0 <= i < |s| - |r| ==> p(s[i])
    ensures r != [] ==> !p(r[0])
  {
    if s != [] && p(s[0]) then
      var r := DropWhile(p, s[1..]);
      assert forall i :: 1 <= i < |s| - |r| ==> s[i] == s[1..][i - 1];
      r
    else s
  }

  /** The longest prefix of `s` that does not end with a character satisfying `p`. */
  function DropLastWhile(p: char -> bool, s: string): (r: string)
    ensures |r| <= |s| && r == s[..|r|]
    ensures forall i :: |r| <= i < |s| ==> p(s[i])
    ensures r != [] ==> !p(r[|r| - 1])
  {
    if s != [] && p(s[|s| - 1]) then
      var r := DropLastWhile(p, s[..|s| - 1]);
      assert forall i :: |r| <= i < |s| - 1 ==> s[i] == s[..|s| - 1][i];
      r
    else s
  }

  lemma BlankConcat(x: string, y: string)
    requires IsBlank(x) && IsBlank(y)
    ensures IsBlank(x + y)
  {
    forall i | 0 <= i < |x + y| ensures IsSpace((x + y)[i]) {
      if i >= |x| { assert (x + y)[i] == y[i - |x|]; }
    }
  }

  /**
   * `r` is the slice of `s` starting at `a` that remains after cutting the
   * whitespace from both ends: blank outside, non-space at its two ends.
   */
  ghost predicate TrimmedAt(s: string, a: int, r: string)
  {
    var b := a + |r|;
    && 0 <= a <= b <= |s| && r == s[a..b]
    && IsBlank(s[..a]) && IsBlank(s[b..])
    && (r != [] ==> !IsSpace(r[0]) && !IsSpace(r[|r| - 1]))
  }

  /** `s.trim()`: leading whitespace, then trailing whitespace, is cut off. */
  function Trim(s: string): string
  {
    TrimEnd(TrimStart(s))
  }

  /**
   * The result of `trim` is the slice of `s` left after removing leading and
   * trailing whitespace.
   */
  lemma TrimIsTrimmedSlice(s: string)
    ensures TrimmedAt(s, |s| - |TrimStart(s)|, Trim(s))
  {
    var t := TrimStart(s);
    TrimmedFromParts(s, |s| - |t|, t, TrimEnd(t));
  }

  /**
   * Cutting a blank prefix off `s` (leaving `t`) and then a blank suffix off
   * `t` (leaving `r`) leaves a trimmed slice of `s`.
   */
  lemma TrimmedFromParts(s: string, a: int, t: string, r: string)
    requires 0 <= a <= |s| && t == s[a..] && IsBlank(s[..a]) && (t != [] ==> !IsSpace(t[0]))
    requires |r| <= |t| && r == t[..|r|] && IsBlank(t[|r|..]) && (r != [] ==> !IsSpace(r[|r| - 1]))
    ensures TrimmedAt(s, a, r)
  {
    assert s[a..a + |r|] == r;
    assert s[a + |r|..] == t[|r|..];
    assert r != [] ==> r[0] == t[0];
  }

  /** `trim` yields the empty string exactly when `s` is all whitespace. */
  lemma TrimEmptyIffBlank(s: string)
    ensures Trim(s) == [] <==> IsBlank(s)
  {
    var t := TrimStart(s);
    var r := TrimEnd(t);
    var a := |s| - |t|;
    assert Trim(s) == r;
    assert s == s[..a] + t;
    if r == [] {
      BlankConcat(s[..a], t);
    } else {
      assert t[0] == s[a];
    }
  }

  /** `s.split(' ')`: the pieces between single spaces; never empty. */
  function Split(s: string): (r: seq<string>)
    ensures |r| >= 1
    ensures forall k :: 0 <= k < |r| ==> ' ' !in r[k]
  {
    if s == [] then [""]
    else if s[0] == ' ' then [""] + Split(s[1..])
    else
      var rest := Split(s[1..]);
      [[s[0]] + rest[0]] + rest[1..]
  }

  /** `parts.join(sep)`. */
  function Join(parts: seq<string>, sep: string): string
  {
    if parts == [] then ""
    else if |parts| == 1 then parts[0]
    else parts[0] + sep + Join(parts[1..], sep)
  }

  /** Splitting on a space and joining with a space restores the string. */
  lemma {:induction false} SplitJoin(s: string)
    ensures Join(Split(s), " ") == s
  {
    if s != [] {
      SplitJoin(s[1..]);
      var rest := Split(s[1..]);
      if s[0] == ' ' {
        assert Split(s) == [""] + rest;
        assert s == " " + s[1..];
      } else {
        var r := Split(s);
        assert r == [[s[0]] + rest[0]] + rest[1..];
        if |rest| == 1 {
          assert Join(r, " ") == [s[0]] + rest[0];
        } else {
          assert r[1..] == rest[1..];
          assert Join(rest, " ") == rest[0] + " " + Join(rest[1..], " ");
        }
      }
    }
  }

  /** A string without spaces splits into itself alone. */
  lemma {:induction false} SplitNoSpace(s: string)
    requires ' ' !in s
    ensures Split(s) == [s]
  {
    if s != [] {
      assert ' ' !in s[1..];
      SplitNoSpace(s[1..]);
      assert s == [s[0]] + s[1..];
    }
  }

  /** The line `cd`, alone after trimming, parses to the single token `cd`, already lower case. */
  lemma LoneCd(line: string)
    requires Trim(line) == "cd"
    ensures Split(Trim(line)) == ["cd"] && Lower(Split(Trim(line))[0]) == "cd"
  {
    SplitNoSpace("cd");
    assert Lower("cd") == [LowerChar('c')] + Lower("d");
  }
}

=== FILE: wrappers.dfy ===
/** Optional values: JavaScript's `null` / `undefined` made explicit. */
module Wrappers {

  datatype Option<+T> = None | Some(value: T) {

    /** Returns the wrapped value, or `default` when there is none. */
    function GetOr(default: T): T {
      match this
      case Some(v) => v
      case None => default
    }
  }
}
